=== FILE: README.md ===
# Budget app core in Dafny

A model of the logic of a single-page budgeting app (`app.js`). The app keeps
one document: accounts (assets and liabilities), three item buckets (budget,
bills and goals) and a last-action marker per section. It stores the document
in the browser's local storage and syncs it to a private GitHub gist.

The model covers:

- the document and its shape (`document.dfy`);
- the migration that runs when the local copy is read (`migration.dfy`);
- the figures derived on every render: remaining balances, section totals,
  the accounts total, "available" and the progress bar (`derive.dfy`);
- the display rules: the sort orders, ordinals, due labels and HTML
  escaping (`display.dfy`);
- the mutation API: add, update, remove, spend, and reset an amount
  (`mutations.dfy`);
- the form handlers: quick transfer, the spend form, deleting a spend, and
  the add/edit form (`handlers.dfy`);
- the sync decisions: gist save and load, autosave with its in-flight flag,
  the throttled auto-refresh, start-up, and backup import (`sync.dfy`).

Amounts are integer cents. JSON text is abstract: it either encodes a document
or does not parse. The clock, generated ids and the network are parameters.
A gist request is returned to the caller, and the oracle's reply is passed
back in. `Basics` holds the shared sequence, sum and string helpers.
`Document.lastUpdated` and `Document.lastSpend` are the document's
`_lastUpdated` and `_lastSpend` stamps, which a spend sets (app.js:416-417);
the table below uses the model's names for them.

## Model

| member | source | states |
|---|---|---|
| Document.FindAccount | app.js:369 | a hit is the index of the first account with that id (no earlier one has it); a miss means no account has it |
| Document.FindItem | app.js:381 | a hit is the index, in an existing bucket, of the first entry with that id (no earlier one has it); a miss means the bucket is missing or no entry has the id |
| Document.KeysDistinct | app.js:47-51 | bucket keys differ from one another and from every `_lastAction` key |
| Migration.IsoDateExamples | app.js:59 | the pattern takes `2024-01-31` (and the non-date `2024-02-30`), and refuses one-digit months, other separators, trailing text and short strings |
| Migration.MigrateDue | app.js:57-63 | only a legacy string changes, and only a `YYYY-MM-DD` string (which becomes a tagged date); every other string stays as it was |
| Migration.MigrateItem | app.js:53-65 | outside `accounts` a missing target becomes the amount; a present one is kept; the due date is migrated; nothing else changes |
| Migration.MigrateItemIdempotent | app.js:52-66 | rewriting an entry twice equals rewriting it once |
| Migration.MigrateSlot | app.js:52-67 | an array slot keeps its length, with every entry rewritten; a last-action slot is untouched |
| Migration.MigrateSlotIdempotent | app.js:52-67 | rewriting a slot twice equals rewriting it once |
| Migration.MigrateSlots | app.js:47-69 | every key gains a `_lastAction` key; only missing ones are added, as null; every slot is migrated under its own key |
| Migration.MigrateSlotsStable | app.js:47-69 | running the migration again keeps every slot of the first run unchanged |
| Migration.MigrateSlotsAlwaysAddsKey | app.js:47-51 | on a non-empty `items`, each run adds at least one new key, because the loop also visits `_lastAction` keys |
| Migration.MigrateDoc | app.js:41-72 | the accounts and top-level fields are kept; `items` is migrated |
| Migration.MigrationKeepsBuckets | app.js:47-69 | migration neither creates nor removes a bucket array |
| Migration.LoadLocal | app.js:41-47 | a cached copy that parses replaces the state; otherwise the current state is kept; either way the result is migrated |
| Migration.LoadLocalKeepsRenders | app.js:41-72 | the loaded document has every bucket array exactly when the document it was loaded from has |
| Migration.LoadLocalAfterSaveLocal | app.js:41-84 | after loading, saving and loading again, the accounts and every previously loaded slot are unchanged |
| Derive.Remaining | app.js:183-184 | with no spends, the remaining balance is the amount |
| Derive.RemainingAfterSpend | app.js:270-272 | one more spend lowers the remaining balance by its amount |
| Derive.RemainingAfterRemoveSpend | app.js:270-272 | deleting spend `i` raises the remaining balance by exactly that spend |
| Derive.Contribution | app.js:273-274 | an entry adds its positive remaining balance, else 0; never negative |
| Derive.SectionTotal | app.js:270-275 | a section total is never negative |
| Derive.SectionTotalBounds | app.js:270-275 | the total is at least the plain sum of remaining balances and at least any one entry's contribution; it equals the plain sum when nothing is overspent |
| Derive.SectionTotalUpdate | app.js:270-275 | replacing one entry changes the total by the change in that entry's contribution |
| Derive.SectionTotalAppend | app.js:270-275 | appending an entry adds its contribution |
| Derive.SectionTotalSettled | app.js:270-275 | a section whose entries are all spent down (remaining not positive) totals 0 |
| Derive.AccountsTotalIsAssetsLessLiabilities | app.js:281-285 | the accounts total equals the asset amounts less the liability amounts |
| Derive.AccountsTotalUpdate | app.js:281-285 | replacing an account changes the total by the change in its signed amount |
| Derive.Available | app.js:293 | `available` never exceeds the accounts total |
| Derive.AvailableCommitted | app.js:269-293 | every entry with money left to spend holds that much back from `available`; with nothing left to spend anywhere, `available` is the accounts total |
| Derive.ProgressPercent | app.js:212-233 | a bar exists exactly when the target is positive; its fill is 0..100, the remaining share of the target; it is full exactly when remaining reaches the target and empty exactly when remaining is not positive |
| Display.Insert | app.js:148-176 | insertion keeps every element (multiset) |
| Display.SortBy | app.js:118-119 | the sorted copy is a permutation of the input |
| Display.InsertSorted | app.js:148-176 | inserting into a sorted list under a total preorder keeps it sorted |
| Display.SortBySorted | app.js:148-176 | under a total preorder the copy is sorted |
| Display.InsertStable | app.js:148-176 | inserting into a sorted list puts the element after every element it ties with, and keeps those in their order |
| Display.SortByStable | app.js:118-119 | the sort is stable: for any element, the elements tied with it come out in their input order |
| Display.BudgetTies | app.js:150-153 | two budget entries tie exactly when their names agree up to the case of A-Z |
| Display.AccountTies | app.js:118-119 | two accounts tie exactly when their names are equal: the order is case-sensitive |
| Display.BillsKey | app.js:157-165 | an undated bill keys as 999; for days 1-31 the key less today is the number of days to the next such day of a 31-day month, 0-30 |
| Display.GoalsKey | app.js:171-175 | undated goals get the largest key, 9e15; dated goals a smaller one |
| Display.DateParts | app.js:172-173 | year, month and day of a `YYYY-MM-DD` string, in 0-9999, 0-99 and 0-99 |
| Display.GoalsFollowCalendar | app.js:171-175 | dated goals compare exactly as their dates do in calendar order (year, then month, then day) |
| Display.DatedGoalsFirst | app.js:171-175 | a goal with a date sorts strictly before one without |
| Display.ItemOrderIsTotalPreorder | app.js:148-176 | the budget, bills and goals comparisons are total and transitive |
| Display.AccountOrderIsTotalPreorder | app.js:118-119 | the accounts comparison is total and transitive |
| Display.DisplayItems | app.js:141-176 | a bucket is shown as a sorted permutation of its stored entries |
| Display.DisplayAccounts | app.js:117-119 | the accounts are shown as a sorted permutation, by name |
| Display.DisplayItemsStable | app.js:141-176 | entries that tie in their bucket's order (undated goals, bills due the same day, budget names equal up to case) are shown in storage order |
| Display.DisplayAccountsStable | app.js:117-119 | accounts with equal names are shown in storage order |
| Display.PassedBillsSortLast | app.js:155-165 | a bill whose day is before today sorts after every bill due today or later |
| Display.OrdinalSuffix | app.js:144-145 | the suffix is always one of th, st, nd, rd |
| Display.OrdinalSuffixIsEnglish | app.js:143-146 | the suffix expression follows the English rule (11th-13th, then by last digit) for n >= 0, and gives "th" for n < 0 |
| Display.Ordinal | app.js:143-146 | a non-negative n is its decimal digits with the English suffix; a negative one is "-", its digits and "th" |
| Display.DueLabel | app.js:193-209 | "-" exactly for an absent due, an empty legacy string or "-"; a locale date of the stored string exactly for a tagged date or an ISO legacy string; a recurrence shows "Every check" exactly for `every-check`, else "Every month"; a day shows its ordinal; any other non-empty legacy string is shown as is |
| Display.MigrationKeepsDueLabel | app.js:57-63 | migrating a due date does not change its label |
| Display.DayLabels | app.js:199-201 | day n of 1..31 is shown as n with its English suffix |
| Display.EscapeHtml | app.js:338 | no `<`, `>`, quote or apostrophe survives; the text never shrinks |
| Display.EscapeHtmlRoundTrip | app.js:338 | decoding the escaped text gives back the original |
| Mutations.SetItem | app.js:381-386 | only the one entry is replaced: accounts, stamps, the accounts' last action and every other slot are unchanged |
| Mutations.NewEntry | app.js:354-356 | a new entry has the given fields, an empty history and spending off by default; its target defaults to the amount |
| Mutations.AddItem | app.js:341-365 | an account or entry is appended at the end; the section's last action becomes "add"; every other slot and the other section are unchanged |
| Mutations.AddAccountEffect | app.js:342-350 | the new account is found at the end, and `available` moves by its signed amount |
| Mutations.AddEntryEffect | app.js:351-361 | the new entry is found at the end, and `available` falls by its positive amount |
| Mutations.UpdateItem | app.js:367-397 | an unknown id changes nothing; otherwise only that entity changes; an entry keeps its id and history and changes target and spending only when given; the last action becomes "edit" |
| Mutations.RemoveItem | app.js:399-407 | exactly the entities with that id are gone, and every other one remains as often as it was there; other slots are unchanged; a missing bucket changes nothing |
| Basics.FilterAppend | app.js:403 | filtering a concatenation is the concatenation of the filtered parts, so kept elements stay in order |
| Mutations.RemoveAccountAppend | app.js:400-401 | with one more account at the end, the result is the shorter list's result followed by that account if it is kept: the kept accounts stay in order |
| Mutations.RemoveEntryAppend | app.js:403 | the same for the entries of a bucket |
| Mutations.RemoveUnknownIsNoOp | app.js:399-407 | removing an id that is not there changes nothing |
| Mutations.AddSpending | app.js:409-425 | an unknown id changes nothing; otherwise exactly one spend is appended to that entry, its amount is kept, and the last action and spend stamps are set |
| Mutations.AddSpendingLowersRemaining | app.js:409-419 | the entry stays where it was, and its remaining balance falls by the spend |
| Mutations.AddSpendingAvailable | app.js:409-419 | a spend within the remaining balance raises `available` by its amount |
| Mutations.UpdateItemAmountAndResetSpent | app.js:889-914 | the amount becomes the new amount; an entry's history is emptied, so remaining equals it; the last action is "edit amount"; an unknown id changes nothing |
| Handlers.SameIdsSameLookup | app.js:496-500 | documents with the same ids resolve every reference to the same position |
| Handlers.ShiftAccount | app.js:508-518 | the account's signed amount moves by exactly the delta, whatever its side |
| Handlers.Shift | app.js:507-521 | only the selected entity's amount changes; no history is touched |
| Handlers.ShiftWorth | app.js:507-521 | the entity's worth moves by exactly the delta |
| Handlers.ShiftOtherWorth | app.js:507-521 | every other entity's worth is unchanged |
| Handlers.ShiftTotalWorth | app.js:507-521 | the sum of all worths moves by exactly the delta |
| Handlers.ShiftAccountAvailable | app.js:508-518 | changing an account moves `available` by the same delta |
| Handlers.ShiftEntryAvailable | app.js:511-521 | changing a non-overspent entry moves `available` by the opposite delta |
| Handlers.ShiftAmountsOnly | app.js:507-521 | a shift changes its entity's amount and nothing else: same ids in the same places, same stamps and last actions, every other slot, account and entry unchanged |
| Handlers.Transfer | app.js:477-527 | refused as incomplete, same item or not found exactly in those cases; otherwise the source loses the amount and the target gains it |
| Handlers.Move | app.js:507-521 | the source's worth falls by the value and the target's rises by it |
| Handlers.TransferChangesOnlyAmounts | app.js:496-521 | an applied transfer changes only the amounts of the two endpoints: their spends, names, schedules and flags, every other account and entry, every other slot, the last actions and the stamps are unchanged |
| Handlers.TransferConservesWorth | app.js:507-521 | an applied transfer leaves the sum of worths unchanged |
| Handlers.TransferBetweenAccountsKeepsAvailable | app.js:507-521 | a transfer between two accounts leaves `available` unchanged |
| Handlers.TransferBetweenEntriesKeepsAvailable | app.js:507-521 | a transfer between two entries that stay non-negative leaves `available` unchanged |
| Handlers.TransferAccountToEntryAvailable | app.js:507-521 | a transfer from an account into an entry that is not overspent lowers `available` by twice the amount |
| Handlers.SubmitSpend | app.js:853-882 | refused exactly when the name is empty, or when the amount is not positive; otherwise, when the entry's bucket is missing, nothing changes (recording the spend throws before the charge); else the entries, `lastUpdated` and `lastSpend` are as recording the spend leaves them, the accounts' last action is kept, and the chosen account, if found, is charged and is the only account that changes |
| Handlers.ChargedSpendKeepsAvailable | app.js:859-878 | a spend charged to an account leaves `available` unchanged |
| Handlers.UnchargedSpendRaisesAvailable | app.js:859-878 | an uncharged spend raises `available` by its amount |
| Handlers.DeleteSpendEntry | app.js:1093-1099 | an index with no entry changes nothing; otherwise exactly that spend is removed, the others keep their order, and remaining rises by its amount; the accounts, the other slots, the last actions and the stamps are unchanged |
| Handlers.DeleteUndoesAddSpending | app.js:1093-1097 | deleting the spend just added restores the bucket's entries and the accounts; the last action and the `lastUpdated` and `lastSpend` stamps the spend set stay set |
| Handlers.AmountChangedIffDiffers | app.js:1143-1146 | on cents, the 0.001 tolerance means "the new amount differs from the old remaining" |
| Handlers.SubmitItemForm | app.js:1111-1160 | refused exactly when the name is empty, or when the bills day is outside 1-31; for accounts, adding appends the typed account (the checkbox as `isPositive`) with an "add" last action, editing a found account overwrites its name, amount and `isPositive` with an "edit" last action, editing an unknown id changes nothing, and the buckets are untouched |
| Handlers.AccountFormEffect | app.js:341-373 | after saving the accounts form, the id finds the typed account (appended last when added, in place when edited), and `available` moves by the change in its signed amount |
| Handlers.EditEntryEffect | app.js:1141-1150 | an edit shows the form's values; history is reset exactly when the amount changed |
| Handlers.EditKeepingAmount | app.js:1143-1150 | an unchanged amount keeps the history and the stored amount |
| Handlers.EditChangingAmount | app.js:1143-1150 | a changed amount empties the history and stores the new amount |
| Handlers.AddEntryTarget | app.js:1116-1156 | an added entry is appended: the existing entries keep their places, and the new one has the new id, the typed name and schedule, an empty history, exactly the typed target (0 when blank), the spending switch, and the typed amount as its remaining balance |
| Sync.FieldOr | app.js:709-710 | manual save's credential is empty exactly when the input is there but empty, or absent with nothing stored |
| Sync.FieldElse | app.js:743-764 | autosave's and load's credential is empty exactly when neither a non-empty input nor a stored value exists |
| Sync.CredentialRulesDiffer | app.js:709-744 | the two rules disagree exactly when the input is present but empty and a value is stored; whenever manual save finds a credential, the other rule finds the same |
| Sync.Backfill | app.js:766-768 | an empty input takes the stored value; a non-empty or absent one is kept |
| Sync.SaveStart | app.js:708-729 | a request goes out exactly when a token is present and either an id is present or creation was asked; without creation it is always a replace of the resolved id; a silent save shows nothing; the document is never changed |
| Sync.SaveFinish | app.js:730-739 | success stores the returned id and the token used; failure changes nothing but the status; a silent save shows nothing |
| Sync.AutosaveStart | app.js:742-753 | silently skipped exactly when a credential is missing; otherwise the flag is raised and only a replace can go out |
| Sync.AutosaveFinish | app.js:729-752 | the flag is always lowered and nothing is shown; a successful save stores the returned id and the token used, and a failed one changes nothing else |
| Sync.AutosaveWithEmptyTokenFieldSendsNothing | app.js:709-712 | with an empty token input but a stored token, autosave raises its flag, yet the save sends nothing |
| Sync.ChooseFile | app.js:784 | picks `budget-data.json` when the gist has it, else the first file; nothing only when there are no files |
| Sync.LoadStart | app.js:755-780 | empty inputs take stored values; a missing id is reported before a missing token; a fetch goes out exactly when both are present |
| Sync.Received | app.js:781-794 | a document arrives exactly when the reply has files and the chosen one parses; a rejection, a network error, no files and unparsable text each give their own error status |
| Sync.LoadFinish | app.js:781-799 | a parsed file replaces the document as is and is cached; if it renders, the credentials are stored and "Loaded" shown, otherwise the credentials are kept and "Invalid JSON" shown; every other failure changes only the status; the outcome is shown even when silent |
| Sync.MalformedGistKeepsDocument | app.js:787-794 | a gist file that does not parse leaves the document and cache untouched |
| Sync.SaveThenLoadRestores | app.js:708-799 | after a successful save, a load fetches the reported gist and restores the saved document |
| Sync.AutoRefresh | app.js:1168-1181 | skipped exactly while saving, within 5000 ms, or without both stored credentials; otherwise records the time and starts a silent load |
| Sync.NoRefreshDuringAutosave | app.js:742-753 | no refresh starts while an autosave is in flight |
| Sync.RefreshThrottled | app.js:1168-1181 | after a refresh, whatever the reply, another within 5000 ms is dropped |
| Sync.Startup | app.js:1204-1209 | the migrated local copy is loaded, and a silent load starts exactly when it renders and both credentials are stored |
| Sync.StartupRendersUnlessCacheLacksBucket | app.js:531-532 | start-up can only stop at the first render when the cached document itself lacks a bucket |
| Sync.LoadedDocumentMigratedOnRestart | app.js:786-790 | a document loaded from the gist is migrated only at the next start-up |
| Sync.Export | app.js:636-652 | the backup is an object that drops exactly the stamps never set, and merging it into the document it came from changes nothing |
| Sync.ApplyPatch | app.js:679 | each key the backup carries overrides the state; every other key is kept |
| Sync.Import | app.js:663-702 | unparsable text and non-objects are refused with an alert; `null` only re-caches; an object is merged only on confirmation, then cached; the alert is success when the result renders, else the render's error |
| Sync.ImportExported | app.js:636-682 | importing an export restores the exported document, except stamps the backup lacks |
| Sync.ImportFullBackup | app.js:636-682 | a backup with every key restores the document exactly |
| Sync.ImportIdempotent | app.js:679 | importing the same file twice equals importing it once |

## Left out

- DOM work: rendering markup, modals, event wiring, the number animation, and
  locale-dependent formatting (`toLocaleString`, `toFixed`, `formatActionDate`).
- I/O: `fetch`, `localStorage`, the file reader and the cache-busting query.
  These become session fields and oracle replies. The `Saving...`/`Loading...`
  status is modelled, but the gap in time before the reply is not.
- Concurrency: only the autosave flag is modelled. Two overlapping autosaves
  (where the first to finish lowers the flag) are not.
- `uid()` and the clock are parameters. Ids are assumed fresh.
- Floating point: `parseFloat`, NaN and rounding. Amounts are integer cents,
  so a NaN spend amount (which passes `<= 0` in the source) is not represented.
- `sw.js`, the "Update App" cache clearing, the install banner, `isPWA` and
  the export download. Export appears only as the backup it would write.
- The initial state's `balances` object (app.js:7) is never read by the
  app. It still travels with the document into the local copy, the gist and
  backups, but `Document` and `Empty` leave it out.
- `showEditAmountForm` (app.js:917-968) is never called and is not modelled.
- `amountClass` and the colour classes of the progress bar.
- Untyped data:
  - `undefined` and `null` are not told apart in the top-level fields;
  - the model has no non-array values under a bucket key, and no non-object
    entries;
  - a parsed gist or backup that is not a document is not represented.
- String handling: `trim()` on inputs is taken as already applied.
- Display.BudgetBefore: `toLowerCase` is modelled for A-Z only (`LowerAscii`),
  and `localeCompare` as code-unit order. Collation rules, accents and
  non-ASCII case pairs are not modelled.
- Display.AccountBefore: `localeCompare` is modelled as code-unit order, so
  "Banana" sorts before "apple" here, where a locale collation puts it
  after.
- Goal dates use a `YYYY-MM-DD` key rather than `Date.parse`.
- Document.FindItem: a missing bucket makes the source throw before anything
  changes. The model reports it as not found and leaves the state as it was;
  `Handlers.SubmitSpend` likewise changes nothing then, the account included.
- Handlers.Transfer: the source throws on a missing bucket; this is modelled
  as the "not found" refusal with the state unchanged.
- Handlers.DeleteSpendEntry: three things are not modelled.
  - The source splices the spend list of the entry captured when the form
    opened (app.js:978, 1097). The model looks the entry up by id when the
    button is pressed.
  - The awaited autosave (app.js:1101) is not part of this step. It is
    `Sync.AutosaveStart` and `Sync.AutosaveFinish`.
  - The page reload that follows (app.js:1103) is not part of it either. It
    is `Sync.Startup`.
- Derive.Available: a missing bucket reads as an empty one, where
  `computeTotals` throws. `Document.Renders` marks such documents, and the
  model follows the throw in `Sync.LoadFinish`, `Sync.Startup` and
  `Sync.Import`; the renders after the other mutations are not modelled.
- Handlers.SubmitItemForm: edits likewise read the entry at submit time. The
  delete-spend and edit confirmations are modelled as already accepted.
- Sync.Startup: the settings inputs are taken to start empty, so they show
  the stored credentials, or nothing. When the first render throws, the
  auto-refresh listeners are never installed (app.js:1205); the model does
  not record this, so `AutoRefresh` can still be applied to such a session.
- Sync.ChooseFile: a gist's file names are unique, so the first file with the
  name is the one the source picks. The reply's file list is taken in
  `Object.values` order (app.js:784), which puts integer-like names first, in
  ascending order, and the others after them in insertion order.
- Sync.Import: an array backup behaves as an object with none of the
  document's keys; keys other than the document's are not modelled.

Notes on the code:

- bills sort with a strict "before today" (app.js:161);
- a manual save does not raise the autosave flag (app.js:708, 747);
- a gist load replaces the state without migrating it (app.js:790);
- the add form stores a blank target as 0 (app.js:1117, 1155), so
  `addItem`'s fallback to the amount is never reached from the form.

=== FILE: basics.dfy ===
/** Small generic building blocks shared by the budget model: an optional
    value, integer sums folded like `Array.prototype.reduce`, first-match
    lookup like `Array.prototype.find`, index removal like `splice(i, 1)`,
    code-unit string order and the JavaScript remainder operator. */
module Basics {

  /** `undefined`/`null` versus a present value. */
  datatype Option<+T> = None | Some(value: T) {
    function GetOr(default: T): T {
      match this
      case Some(v) => v
      case None => default
    }
  }

  // ---------------------------------------------------------------------------
  // Sums

  /** Left fold `((0 + xs[0]) + xs[1]) + ...`, the shape of `reduce((a, b) => a + b, 0)`. */
  function Sum(xs: seq<int>): int
  {
    if xs == [] then 0 else Sum(xs[..|xs| - 1]) + xs[|xs| - 1]
  }

  lemma {:induction false} SumAppend(xs: seq<int>, ys: seq<int>)
    ensures Sum(xs + ys) == Sum(xs) + Sum(ys)
    decreases |ys|
  {
    if ys == [] {
      assert xs + ys == xs;
    } else {
      var n := |ys| - 1;
      assert (xs + ys)[..|xs + ys| - 1] == xs + ys[..n];
      SumAppend(xs, ys[..n]);
    }
  }

  lemma SumSingleton(x: int)
    ensures Sum([x]) == x
  {
    assert [x][..0] == [];
  }

  /** Replacing one summand changes the sum by exactly the difference. */
  lemma SumUpdate(xs: seq<int>, i: nat, v: int)
    requires i < |xs|
    ensures Sum(xs[i := v]) == Sum(xs) - xs[i] + v
  {
    assert xs == xs[..i] + [xs[i]] + xs[i + 1..];
    assert xs[i := v] == xs[..i] + [v] + xs[i + 1..];
    SumAppend(xs[..i] + [xs[i]], xs[i + 1..]);
    SumAppend(xs[..i], [xs[i]]);
    SumAppend(xs[..i] + [v], xs[i + 1..]);
    SumAppend(xs[..i], [v]);
    SumSingleton(xs[i]);
    SumSingleton(v);
  }

  /** The sum splits around any position. */
  lemma SumSplitAt(xs: seq<int>, i: nat)
    requires i < |xs|
    ensures Sum(xs) == Sum(xs[..i]) + xs[i] + Sum(xs[i + 1..])
  {
    var front, back := xs[..i] + [xs[i]], xs[i + 1..];
    assert xs == front + back;
    SumAppend(front, back);
    SumAppend(xs[..i], [xs[i]]);
    SumSingleton(xs[i]);
  }

  /** Dropping one summand lowers the sum by exactly that summand. */
  lemma SumRemoveAt(xs: seq<int>, i: nat)
    requires i < |xs|
    ensures Sum(RemoveAt(xs, i)) == Sum(xs) - xs[i]
  {
    SumSplitAt(xs, i);
    SumAppend(xs[..i], xs[i + 1..]);
  }

  lemma {:induction false} SumNonNegative(xs: seq<int>)
    requires forall i :: 0 <= i < |xs| ==> xs[i] >= 0
    ensures Sum(xs) >= 0
    decreases |xs|
  {
    if xs != [] {
      SumNonNegative(xs[..|xs| - 1]);
    }
  }

  /** A pointwise larger sequence has a larger sum. */
  lemma {:induction false} SumMonotone(xs: seq<int>, ys: seq<int>)
    requires |xs| == |ys|
    requires forall i :: 0 <= i < |xs| ==> xs[i] <= ys[i]
    ensures Sum(xs) <= Sum(ys)
    decreases |xs|
  {
    if xs != [] {
      SumMonotone(xs[..|xs| - 1], ys[..|ys| - 1]);
    }
  }

  // ---------------------------------------------------------------------------
  // Sequence edits

  /** The index of the first occurrence of `x`, as `findIndex`/`find` would pick it. */
  function FirstIndex<T(==)>(s: seq<T>, x: T): (r: Option<nat>)
    ensures r.None? <==> x !in s
    ensures r.Some? ==> r.value < |s| && s[r.value] == x
    ensures r.Some? ==> forall j :: 0 <= j < r.value ==> s[j] != x
  {
    if s == [] then None
    else if s[0] == x then Some(0)
    else match FirstIndex(s[1..], x)
      case None => None
      case Some(k) => Some(k + 1)
  }

  /** `splice(i, 1)`: remove the element at index `i`. */
  function RemoveAt<T>(s: seq<T>, i: nat): (r: seq<T>)
    requires i < |s|
    ensures |r| == |s| - 1
    ensures forall j :: 0 <= j < i ==> r[j] == s[j]
    ensures forall j :: i <= j < |r| ==> r[j] == s[j + 1]
  {
    s[..i] + s[i + 1..]
  }

  /** `filter(keep)`: the kept elements, in their original order. */
  function Filter<T>(s: seq<T>, keep: T -> bool): (r: seq<T>)
    ensures forall x :: x in r ==> x in s && keep(x)
    ensures forall x :: x in s && keep(x) ==> x in r
    ensures multiset(r) <= multiset(s)
    ensures forall x :: x in s && keep(x) ==> multiset(r)[x] == multiset(s)[x]
    ensures (forall x :: x in s ==> keep(x)) ==> r == s
  {
    if s == [] then []
    else
      assert s == [s[0]] + s[1..];
      if keep(s[0]) then [s[0]] + Filter(s[1..], keep) else Filter(s[1..], keep)
  }

  /** Filtering distributes over concatenation, so the kept elements stay in
      their original order. */
  lemma {:induction false} FilterAppend<T>(s: seq<T>, t: seq<T>, keep: T -> bool)
    ensures Filter(s + t, keep) == Filter(s, keep) + Filter(t, keep)
  {
    if s == [] {
      assert s + t == t;
    } else {
      assert (s + t)[1..] == s[1..] + t;
      FilterAppend(s[1..], t, keep);
    }
  }

  /** The values `f` gives for the elements of `s`, in order. */
  function MapSeq<T, U>(s: seq<T>, f: T -> U): (r: seq<U>)
    ensures |r| == |s|
    ensures forall i :: 0 <= i < |s| ==> r[i] == f(s[i])
  {
    seq(|s|, i requires 0 <= i < |s| => f(s[i]))
  }

  /** Regrouping a concatenation, stated on its own so that a proof can use
      it without unfolding what the parts are made of. */
  lemma ConcatAssoc<T>(a: seq<T>, b: seq<T>, c: seq<T>)
    ensures a + (b + c) == (a + b) + c
  {
  }

  // ---------------------------------------------------------------------------
  // Strings

  /** Code-unit lexicographic order: `a` is not after `b`. */
  predicate LexLe(a: string, b: string)
  {
    a == [] || (b != [] && (a[0] < b[0] || (a[0] == b[0] && LexLe(a[1..], b[1..]))))
  }

  lemma {:induction false} LexLeTotal(a: string, b: string)
    ensures LexLe(a, b) || LexLe(b, a)
    decreases |a|
  {
    if a != [] && b != [] && a[0] == b[0] {
      LexLeTotal(a[1..], b[1..]);
    }
  }

  lemma {:induction false} LexLeTransitive(a: string, b: string, c: string)
    requires LexLe(a, b) && LexLe(b, c)
    ensures LexLe(a, c)
    decreases |a|
  {
    if a != [] && b != [] && c != [] && a[0] == b[0] && b[0] == c[0] {
      LexLeTransitive(a[1..], b[1..], c[1..]);
    }
  }

  lemma {:induction false} LexLeReflexive(a: string)
    ensures LexLe(a, a)
    decreases |a|
  {
    if a != [] {
      LexLeReflexive(a[1..]);
    }
  }

  lemma {:induction false} LexLeAntisymmetric(a: string, b: string)
    requires LexLe(a, b) && LexLe(b, a)
    ensures a == b
    decreases |a|
  {
    if a != [] {
      LexLeAntisymmetric(a[1..], b[1..]);
      assert a == [a[0]] + a[1..] && b == [b[0]] + b[1..];
    }
  }

  /** Lower-casing restricted to the ASCII letters A-Z. */
  function LowerAscii(s: string): (r: string)
    ensures |r| == |s|
    ensures forall i :: 0 <= i < |s| ==> r[i] == (if 'A' <= s[i] <= 'Z' then (s[i] as int + 32) as char else s[i])
  {
    seq(|s|, i requires 0 <= i < |s| => if 'A' <= s[i] <= 'Z' then (s[i] as int + 32) as char else s[i])
  }

  predicate IsDigit(c: char)
  {
    '0' <= c <= '9'
  }

  /** Decimal digits of a natural number, most significant first. */
  function NatToString(n: nat): (r: string)
    ensures |r| >= 1
    ensures forall i :: 0 <= i < |r| ==> IsDigit(r[i])
    decreases n
  {
    var d := [(('0' as int) + n % 10) as char];
    if n < 10 then d else NatToString(n / 10) + d
  }

  /** The value a string of decimal digits denotes. */
  function DigitsValue(s: string): int
    decreases |s|
  {
    if s == [] then 0 else DigitsValue(s[..|s| - 1]) * 10 + (s[|s| - 1] as int - '0' as int)
  }

  lemma {:induction false} NatToStringRoundTrip(n: nat)
    ensures DigitsValue(NatToString(n)) == n
    decreases n
  {
    var d := [(('0' as int) + n % 10) as char];
    if n >= 10 {
      NatToStringRoundTrip(n / 10);
      var s := NatToString(n / 10) + d;
      assert s[..|s| - 1] == NatToString(n / 10);
    }
  }

  /** `String(n)` for an integer. */
  function IntToString(n: int): string
  {
    if n < 0 then "-" + NatToString(-n) else NatToString(n)
  }

  // ---------------------------------------------------------------------------
  // Arithmetic

  /** JavaScript `a % m` for a positive divisor: the sign follows the dividend
      (truncated division), unlike Dafny's Euclidean `%`. */
  function TruncMod(a: int, m: int): (r: int)
    requires m > 0
    ensures -m < r < m
    ensures a >= 0 ==> 0 <= r
    ensures a <= 0 ==> r <= 0
  {
    if a >= 0 then a % m else -((-a) % m)
  }
}

=== FILE: derive.dfy ===
/** The figures derived from the document on every render: an entry's
    remaining balance, the bucket totals, the accounts total, the available
    figure (`computeTotals`, app.js:269-293) and the progress bar fill
    (app.js:231-233). */
module Derive {
  import opened Basics
  import opened Document

  function SpentAmounts(spent: seq<Spend>): (r: seq<int>)
    ensures |r| == |spent|
    ensures forall i :: 0 <= i < |spent| ==> r[i] == spent[i].amount
  {
    seq(|spent|, i requires 0 <= i < |spent| => spent[i].amount)
  }

  /** The sum of the recorded spends. */
  function SpentTotal(spent: seq<Spend>): int
  {
    Sum(SpentAmounts(spent))
  }

  /** What is left of an entry: its balance less everything spent against it. */
  function Remaining(it: Item): (r: int)
    ensures it.spent == [] ==> r == it.amount
  {
    it.amount - SpentTotal(it.spent)
  }

  /** Recording one more spend lowers the remaining balance by its amount. */
  lemma RemainingAfterSpend(it: Item, e: Spend)
    ensures Remaining(it.(spent := it.spent + [e])) == Remaining(it) - e.amount
  {
    assert SpentAmounts(it.spent + [e]) == SpentAmounts(it.spent) + [e.amount];
    SumAppend(SpentAmounts(it.spent), [e.amount]);
    SumSingleton(e.amount);
  }

  /** Deleting spend `i` raises the remaining balance by exactly its amount. */
  lemma RemainingAfterRemoveSpend(it: Item, i: nat)
    requires i < |it.spent|
    ensures Remaining(it.(spent := RemoveAt(it.spent, i))) == Remaining(it) + it.spent[i].amount
  {
    assert SpentAmounts(RemoveAt(it.spent, i)) == RemoveAt(SpentAmounts(it.spent), i);
    SumRemoveAt(SpentAmounts(it.spent), i);
  }

  /** What an entry adds to its bucket's total: its remaining balance when
      positive, nothing when spent to zero or overspent. */
  function Contribution(it: Item): (r: int)
    ensures r >= 0 && r >= Remaining(it)
    ensures r == 0 || r == Remaining(it)
  {
    var rem := Remaining(it);
    if rem > 0 then rem else 0
  }

  function Contributions(list: seq<Item>): (r: seq<int>)
    ensures |r| == |list|
    ensures forall i :: 0 <= i < |list| ==> r[i] == Contribution(list[i])
  {
    seq(|list|, i requires 0 <= i < |list| => Contribution(list[i]))
  }

  /** A bucket's total: the sum of the positive remaining balances. */
  function SectionTotal(list: seq<Item>): (r: int)
    ensures r >= 0
  {
    SumNonNegative(Contributions(list));
    Sum(Contributions(list))
  }

  function BucketTotal(doc: Document, b: Bucket): int
  {
    SectionTotal(ItemsOf(doc, b))
  }

  /** The plain sum of remaining balances, overspent entries included. */
  function RawTotal(list: seq<Item>): int
  {
    Sum(seq(|list|, i requires 0 <= i < |list| => Remaining(list[i])))
  }

  /** The total is never below the plain sum of remaining balances, never
      below any single entry's positive balance, and equals the plain sum
      exactly when no entry is overspent. */
  lemma SectionTotalBounds(list: seq<Item>)
    ensures SectionTotal(list) >= RawTotal(list)
    ensures forall i :: 0 <= i < |list| ==> SectionTotal(list) >= Contribution(list[i])
    ensures (forall i :: 0 <= i < |list| ==> Remaining(list[i]) >= 0) ==> SectionTotal(list) == RawTotal(list)
  {
    var raw := seq(|list|, i requires 0 <= i < |list| => Remaining(list[i]));
    var cs := Contributions(list);
    SumMonotone(raw, cs);
    forall i | 0 <= i < |list|
      ensures SectionTotal(list) >= Contribution(list[i])
    {
      SumUpdate(cs, i, 0);
      SumNonNegative(cs[i := 0]);
    }
    if forall i :: 0 <= i < |list| ==> Remaining(list[i]) >= 0 {
      assert raw == cs;
    }
  }

  /** Replacing one entry changes the total by the change in its contribution. */
  lemma SectionTotalUpdate(list: seq<Item>, i: nat, x: Item)
    requires i < |list|
    ensures SectionTotal(list[i := x]) == SectionTotal(list) - Contribution(list[i]) + Contribution(x)
  {
    assert Contributions(list[i := x]) == Contributions(list)[i := Contribution(x)];
    SumUpdate(Contributions(list), i, Contribution(x));
  }

  /** Appending an entry adds exactly its contribution to the total. */
  lemma SectionTotalAppend(list: seq<Item>, x: Item)
    ensures SectionTotal(list + [x]) == SectionTotal(list) + Contribution(x)
  {
    assert Contributions(list + [x]) == Contributions(list) + [Contribution(x)];
    SumAppend(Contributions(list), [Contribution(x)]);
    SumSingleton(Contribution(x));
  }

  /** An asset counts positively, a liability negatively. */
  function Signed(a: Account): int
  {
    if a.isPositive then a.amount else -a.amount
  }

  function SignedAmounts(accounts: seq<Account>): (r: seq<int>)
    ensures |r| == |accounts|
    ensures forall i :: 0 <= i < |accounts| ==> r[i] == Signed(accounts[i])
  {
    seq(|accounts|, i requires 0 <= i < |accounts| => Signed(accounts[i]))
  }

  /** The net worth of the accounts. */
  function AccountsTotal(accounts: seq<Account>): int
  {
    Sum(SignedAmounts(accounts))
  }

  /** Reference definitions: the amounts of the assets, of the liabilities. */
  function AssetTotal(accounts: seq<Account>): int
  {
    if accounts == [] then 0 else
      var last := accounts[|accounts| - 1];
      AssetTotal(accounts[..|accounts| - 1]) + (if last.isPositive then last.amount else 0)
  }

  function LiabilityTotal(accounts: seq<Account>): int
  {
    if accounts == [] then 0 else
      var last := accounts[|accounts| - 1];
      LiabilityTotal(accounts[..|accounts| - 1]) + (if last.isPositive then 0 else last.amount)
  }

  /** The accounts total is the assets less the liabilities. */
  lemma {:induction false} AccountsTotalIsAssetsLessLiabilities(accounts: seq<Account>)
    ensures AccountsTotal(accounts) == AssetTotal(accounts) - LiabilityTotal(accounts)
    decreases |accounts|
  {
    if accounts != [] {
      var front := accounts[..|accounts| - 1];
      assert SignedAmounts(accounts)[..|accounts| - 1] == SignedAmounts(front);
      AccountsTotalIsAssetsLessLiabilities(front);
    }
  }

  /** Replacing one account changes the total by the change in its signed amount. */
  lemma AccountsTotalUpdate(accounts: seq<Account>, i: nat, a: Account)
    requires i < |accounts|
    ensures AccountsTotal(accounts[i := a]) == AccountsTotal(accounts) - Signed(accounts[i]) + Signed(a)
  {
    assert SignedAmounts(accounts[i := a]) == SignedAmounts(accounts)[i := Signed(a)];
    SumUpdate(SignedAmounts(accounts), i, Signed(a));
  }

  /** Net worth less everything still committed to budget, bills and goals. */
  function Available(doc: Document): (r: int)
    ensures r <= AccountsTotal(doc.accounts)
  {
    AccountsTotal(doc.accounts) - BucketTotal(doc, Budget) - BucketTotal(doc, Bills) - BucketTotal(doc, Goals)
  }

  /** Every entry with money still to spend holds that much back from the
      available figure; when nothing is left to spend anywhere, available is
      the whole net worth. */
  lemma AvailableCommitted(doc: Document)
    ensures forall b: Bucket, i :: 0 <= i < |ItemsOf(doc, b)| ==>
      Available(doc) <= AccountsTotal(doc.accounts) - Contribution(ItemsOf(doc, b)[i])
    ensures (forall b: Bucket, i :: 0 <= i < |ItemsOf(doc, b)| ==> Remaining(ItemsOf(doc, b)[i]) <= 0) ==>
      Available(doc) == AccountsTotal(doc.accounts)
  {
    SectionTotalBounds(ItemsOf(doc, Budget));
    SectionTotalBounds(ItemsOf(doc, Bills));
    SectionTotalBounds(ItemsOf(doc, Goals));
    SectionTotalSettled(ItemsOf(doc, Budget));
    SectionTotalSettled(ItemsOf(doc, Bills));
    SectionTotalSettled(ItemsOf(doc, Goals));
  }

  /** A section whose entries are all spent down commits nothing. */
  lemma {:induction false} SectionTotalSettled(list: seq<Item>)
    ensures (forall i :: 0 <= i < |list| ==> Remaining(list[i]) <= 0) ==> SectionTotal(list) == 0
    decreases |list|
  {
    if list != [] && forall i :: 0 <= i < |list| ==> Remaining(list[i]) <= 0 {
      var init := list[..|list| - 1];
      SectionTotalSettled(init);
      assert Contributions(list)[..|list| - 1] == Contributions(init);
    }
  }

  /** The target the progress bar measures against: `neededAmount`, or the
      balance when `neededAmount` is absent. */
  function NeededBase(it: Item): int
  {
    it.neededAmount.GetOr(it.amount)
  }

  /** The bar's fill in percent, `None` when there is no bar (target not
      positive): the remaining share of the target, clamped to 0..100. */
  function ProgressPercent(it: Item): (r: Option<real>)
    ensures r.Some? <==> NeededBase(it) > 0
    ensures r.Some? ==> 0.0 <= r.value <= 100.0
    ensures r.Some? ==> (r.value == 100.0 <==> Remaining(it) >= NeededBase(it))
    ensures r.Some? ==> (r.value == 0.0 <==> Remaining(it) <= 0)
    ensures r.Some? && 0 < Remaining(it) < NeededBase(it) ==>
      r.value * (NeededBase(it) as real) == (Remaining(it) as real) * 100.0
  {
    var base := NeededBase(it);
    if base > 0 then
      var p := (Remaining(it) as real / base as real) * 100.0;
      ShareFacts(Remaining(it), base);
      Some(if p < 0.0 then 0.0 else if p > 100.0 then 100.0 else p)
    else None
  }

  /** The remaining share of a positive target, in percent, reaches 100
      exactly when the remainder reaches the target and 0 exactly when the
      remainder does. */
  lemma ShareFacts(rem: int, base: int)
    requires base > 0
    ensures var p := (rem as real / base as real) * 100.0;
      && (p >= 100.0 <==> rem >= base)
      && (p <= 0.0 <==> rem <= 0)
      && p * (base as real) == (rem as real) * 100.0
  {
    var b := base as real;
    var q := rem as real / b;
    assert q * b == rem as real;
    assert q >= 1.0 <==> q * b >= b;
    assert q <= 0.0 <==> q * b <= 0.0;
  }
}

=== FILE: display.dfy ===
/** The pure rules behind the lists on screen (`renderLists`, app.js:89-267):
    the display order of each section, computed on a copy so that storage
    order is never touched; the due label with its ordinal day; and HTML
    escaping of user text (app.js:338). */
module Display {
  import opened Basics
  import opened Document
  import opened Migration

  // ---------------------------------------------------------------------------
  // Sorting a copy

  ghost predicate TotalPreorder<T(!new)>(le: (T, T) -> bool)
  {
    && (forall a, b :: le(a, b) || le(b, a))
    && (forall a, b, c :: le(a, b) && le(b, c) ==> le(a, c))
  }

  ghost predicate Sorted<T>(s: seq<T>, le: (T, T) -> bool)
  {
    forall i, j :: 0 <= i < j < |s| ==> le(s[i], s[j])
  }

  /** Insert `x` after every element not after it, so that equal keys keep
      their original relative order. */
  function Insert<T>(x: T, s: seq<T>, le: (T, T) -> bool): (r: seq<T>)
    ensures multiset(r) == multiset(s) + multiset{x}
  {
    if s == [] then [x]
    else if le(s[0], x) then
      assert s == [s[0]] + s[1..];
      [s[0]] + Insert(x, s[1..], le)
    else [x] + s
  }

  /** A sorted copy of `s`; `s` itself is a value and stays as it was. */
  function SortBy<T>(s: seq<T>, le: (T, T) -> bool): (r: seq<T>)
    ensures multiset(r) == multiset(s)
  {
    if s == [] then []
    else
      assert s == s[..|s| - 1] + [s[|s| - 1]];
      Insert(s[|s| - 1], SortBy(s[..|s| - 1], le), le)
  }

  lemma {:induction false} InsertSorted<T(!new)>(x: T, s: seq<T>, le: (T, T) -> bool)
    requires TotalPreorder(le)
    requires Sorted(s, le)
    ensures Sorted(Insert(x, s, le), le)
    decreases |s|
  {
    if s != [] {
      if le(s[0], x) {
        InsertSorted(x, s[1..], le);
        var tail := Insert(x, s[1..], le);
        forall j | 0 <= j < |tail|
          ensures le(s[0], tail[j])
        {
          assert tail[j] in multiset(tail);
          assert tail[j] in multiset(s[1..]) + multiset{x};
          if tail[j] != x {
            assert tail[j] in s[1..];
            var k :| 0 <= k < |s[1..]| && s[1..][k] == tail[j];
            assert s[k + 1] == tail[j];
          }
        }
      } else {
        assert le(x, s[0]);
        forall j | 0 <= j < |s|
          ensures le(x, s[j])
        {
          if j > 0 {
            assert le(s[0], s[j]);
          }
        }
      }
    }
  }

  /** With a total preorder the copy is in order. */
  lemma {:induction false} SortBySorted<T(!new)>(s: seq<T>, le: (T, T) -> bool)
    requires TotalPreorder(le)
    ensures Sorted(SortBy(s, le), le)
    decreases |s|
  {
    if s != [] {
      SortBySorted(s[..|s| - 1], le);
      InsertSorted(s[|s| - 1], SortBy(s[..|s| - 1], le), le);
    }
  }

  /** Whether an element ties with `k`: neither comes before the other, so
      the comparison gives 0 for the pair. */
  function TiedWith<T>(k: T, le: (T, T) -> bool): T -> bool
  {
    x => le(x, k) && le(k, x)
  }

  /** In a sorted list, once an element is after `x`, nothing later ties with `x`. */
  lemma NoTiesAfter<T(!new)>(x: T, s: seq<T>, k: T, le: (T, T) -> bool)
    requires TotalPreorder(le)
    requires Sorted(s, le)
    requires s != [] && !le(s[0], x)
    requires TiedWith(k, le)(x)
    ensures Filter(s, TiedWith(k, le)) == []
  {
    var keep := TiedWith(k, le);
    forall y | y in s
      ensures !keep(y)
    {
      var m :| 0 <= m < |s| && s[m] == y;
      if m > 0 {
        assert le(s[0], s[m]);
      }
    }
  }

  /** Insertion puts `x` after every element tied with `k` that was there. */
  lemma {:induction false} InsertStable<T(!new)>(x: T, s: seq<T>, k: T, le: (T, T) -> bool)
    requires TotalPreorder(le)
    requires Sorted(s, le)
    ensures Filter(Insert(x, s, le), TiedWith(k, le)) == Filter(s, TiedWith(k, le)) + Filter([x], TiedWith(k, le))
    decreases |s|
  {
    if s == [] {
      assert Insert(x, s, le) == [x];
    } else if le(s[0], x) {
      var tail := s[1..];
      assert Sorted(tail, le);
      InsertStable(x, tail, k, le);
      InsertPastHead(x, s, le, TiedWith(k, le));
    } else {
      if TiedWith(k, le)(x) {
        NoTiesAfter(x, s, k, le);
      }
      InsertBeforeHead(x, s, le, TiedWith(k, le));
    }
  }

  /** The step past a head not after `x`, given the result for the tail. */
  lemma InsertPastHead<T>(x: T, s: seq<T>, le: (T, T) -> bool, keep: T -> bool)
    requires s != [] && le(s[0], x)
    requires Filter(Insert(x, s[1..], le), keep) == Filter(s[1..], keep) + Filter([x], keep)
    ensures Filter(Insert(x, s, le), keep) == Filter(s, keep) + Filter([x], keep)
  {
    var head, tail := s[0], s[1..];
    var rest := Insert(x, tail, le);
    assert Insert(x, s, le) == [head] + rest;
    assert s == [head] + tail;
    FilterAppend([head], rest, keep);
    FilterAppend([head], tail, keep);
    ConcatAssoc(Filter([head], keep), Filter(tail, keep), Filter([x], keep));
  }

  /** Stopping at a head after `x`: `x` goes first, and nothing it is kept
      with follows. */
  lemma InsertBeforeHead<T>(x: T, s: seq<T>, le: (T, T) -> bool, keep: T -> bool)
    requires s != [] && !le(s[0], x)
    requires keep(x) ==> Filter(s, keep) == []
    ensures Filter(Insert(x, s, le), keep) == Filter(s, keep) + Filter([x], keep)
  {
    assert Insert(x, s, le) == [x] + s;
    FilterAppend([x], s, keep);
  }

  /** The sort is stable: the elements that tie with any `k` come out in the
      order they went in. */
  lemma {:induction false} SortByStable<T(!new)>(s: seq<T>, k: T, le: (T, T) -> bool)
    requires TotalPreorder(le)
    ensures Filter(SortBy(s, le), TiedWith(k, le)) == Filter(s, TiedWith(k, le))
    decreases |s|
  {
    if s != [] {
      var front, last := s[..|s| - 1], s[|s| - 1];
      SortByStable(front, k, le);
      SortBySorted(front, le);
      InsertStable(last, SortBy(front, le), k, le);
      assert s == front + [last];
      FilterAppend(front, [last], TiedWith(k, le));
    }
  }

  // ---------------------------------------------------------------------------
  // Section orders

  /** budget: by name, lower-cased (app.js:150-153). */
  predicate BudgetBefore(a: Item, b: Item)
  {
    LexLe(LowerAscii(a.name), LowerAscii(b.name))
  }

  /** Two budget entries tie exactly when their names agree up to the case
      of A-Z. */
  lemma BudgetTies(a: Item, b: Item)
    ensures BudgetBefore(a, b) && BudgetBefore(b, a) <==> LowerAscii(a.name) == LowerAscii(b.name)
  {
    LexLeReflexive(LowerAscii(a.name));
    if BudgetBefore(a, b) && BudgetBefore(b, a) {
      LexLeAntisymmetric(LowerAscii(a.name), LowerAscii(b.name));
    }
  }

  /** accounts: by name as written, with no lower-casing (app.js:118-119). */
  predicate AccountBefore(a: Account, b: Account)
  {
    LexLe(a.name, b.name)
  }

  /** Two accounts tie exactly when their names are equal: the account order
      is case-sensitive. */
  lemma AccountTies(a: Account, b: Account)
    ensures AccountBefore(a, b) && AccountBefore(b, a) <==> a.name == b.name
  {
    LexLeReflexive(a.name);
    if AccountBefore(a, b) && AccountBefore(b, a) {
      LexLeAntisymmetric(a.name, b.name);
    }
  }

  /** bills: a day strictly before today counts as next month's; entries
      without a day go last (app.js:155-169). */
  function BillsKey(it: Item, today: int): (r: int)
    ensures !it.due.Day? ==> r == 999
    ensures it.due.Day? && 1 <= today <= 31 && 1 <= it.due.day <= 31 ==>
      today <= r <= today + 30 && (r - today) % 31 == (it.due.day - today) % 31
  {
    match it.due
    case Day(d) => if d < today then d + 31 else d
    case _ => 999
  }

  function BillsOrder(today: int): (Item, Item) -> bool
  {
    (a: Item, b: Item) => BillsKey(a, today) <= BillsKey(b, today)
  }

  /** The `9e15` placed after every real date (app.js:172-173). */
  const NoDateKey: int := 9_000_000_000_000_000

  /** goals: by date, earliest first; entries without a tagged date go last
      (app.js:171-175). A `YYYY-MM-DD` date is keyed as the number
      YYYYMMDD, which orders valid dates as their timestamps do. */
  function GoalsKey(it: Item): (r: int)
    ensures r <= NoDateKey
    ensures r == NoDateKey <==> !(it.due.Date? && IsIsoDate(it.due.iso))
  {
    match it.due
    case Date(v) =>
      if IsIsoDate(v) then
        DigitsValueBounds(v[0..4]);
        DigitsValueBounds(v[5..7]);
        DigitsValueBounds(v[8..10]);
        DigitsValue(v[0..4]) * 10000 + DigitsValue(v[5..7]) * 100 + DigitsValue(v[8..10])
      else NoDateKey
    case _ => NoDateKey
  }

  predicate GoalsBefore(a: Item, b: Item)
  {
    GoalsKey(a) <= GoalsKey(b)
  }

  /** The year, month and day a `YYYY-MM-DD` string names, each read as a
      decimal number. */
  function DateParts(iso: string): (r: (int, int, int))
    requires IsIsoDate(iso)
    ensures 0 <= r.0 <= 9999 && 0 <= r.1 <= 99 && 0 <= r.2 <= 99
  {
    DigitsValueBounds(iso[0..4]);
    DigitsValueBounds(iso[5..7]);
    DigitsValueBounds(iso[8..10]);
    assert Pow10(2) == 100 && Pow10(4) == 10000;
    (DigitsValue(iso[0..4]), DigitsValue(iso[5..7]), DigitsValue(iso[8..10]))
  }

  /** Calendar order: by year, then by month, then by day. */
  predicate DateNotAfter(a: (int, int, int), b: (int, int, int))
  {
    a.0 < b.0 || (a.0 == b.0 && (a.1 < b.1 || (a.1 == b.1 && a.2 <= b.2)))
  }

  /** Goals with dates are listed in calendar order of those dates. */
  lemma GoalsFollowCalendar(a: Item, b: Item)
    requires a.due.Date? && IsIsoDate(a.due.iso)
    requires b.due.Date? && IsIsoDate(b.due.iso)
    ensures GoalsBefore(a, b) <==> DateNotAfter(DateParts(a.due.iso), DateParts(b.due.iso))
  {
    var x := DateParts(a.due.iso);
    var y := DateParts(b.due.iso);
    assert GoalsKey(a) == x.0 * 10000 + x.1 * 100 + x.2;
    assert GoalsKey(b) == y.0 * 10000 + y.1 * 100 + y.2;
  }

  /** Goals with a date always come before goals without one. */
  lemma DatedGoalsFirst(a: Item, b: Item)
    requires a.due.Date? && IsIsoDate(a.due.iso)
    requires !(b.due.Date? && IsIsoDate(b.due.iso))
    ensures GoalsBefore(a, b) && !GoalsBefore(b, a)
  {
  }

  function Pow10(n: nat): nat
  {
    if n == 0 then 1 else 10 * Pow10(n - 1)
  }

  lemma {:induction false} DigitsValueBounds(s: string)
    requires forall i :: 0 <= i < |s| ==> IsDigit(s[i])
    ensures 0 <= DigitsValue(s) < Pow10(|s|)
    decreases |s|
  {
    if s != [] {
      DigitsValueBounds(s[..|s| - 1]);
    }
  }

  function ItemOrder(b: Bucket, today: int): (Item, Item) -> bool
  {
    match b
    case Budget => BudgetBefore
    case Bills => BillsOrder(today)
    case Goals => GoalsBefore
  }

  lemma ItemOrderIsTotalPreorder(b: Bucket, today: int)
    ensures TotalPreorder(ItemOrder(b, today))
  {
    match b
    case Budget =>
      forall x: Item, y: Item
        ensures BudgetBefore(x, y) || BudgetBefore(y, x)
      {
        LexLeTotal(LowerAscii(x.name), LowerAscii(y.name));
      }
      forall x: Item, y: Item, z: Item | BudgetBefore(x, y) && BudgetBefore(y, z)
        ensures BudgetBefore(x, z)
      {
        LexLeTransitive(LowerAscii(x.name), LowerAscii(y.name), LowerAscii(z.name));
      }
    case Bills =>
    case Goals =>
  }

  lemma AccountOrderIsTotalPreorder()
    ensures TotalPreorder(AccountBefore)
  {
    forall x: Account, y: Account
      ensures AccountBefore(x, y) || AccountBefore(y, x)
    {
      LexLeTotal(x.name, y.name);
    }
    forall x: Account, y: Account, z: Account | AccountBefore(x, y) && AccountBefore(y, z)
      ensures AccountBefore(x, z)
    {
      LexLeTransitive(x.name, y.name, z.name);
    }
  }

  /** The order a bucket's entries are listed in: a sorted copy holding
      exactly the stored entries. */
  function DisplayItems(b: Bucket, list: seq<Item>, today: int): (r: seq<Item>)
    ensures multiset(r) == multiset(list)
    ensures Sorted(r, ItemOrder(b, today))
  {
    ItemOrderIsTotalPreorder(b, today);
    SortBySorted(list, ItemOrder(b, today));
    SortBy(list, ItemOrder(b, today))
  }

  /** Entries that tie in a bucket's order (undated goals, bills due the
      same day, budget names equal up to case) are listed in storage order. */
  lemma DisplayItemsStable(b: Bucket, list: seq<Item>, today: int, k: Item)
    ensures Filter(DisplayItems(b, list, today), TiedWith(k, ItemOrder(b, today)))
         == Filter(list, TiedWith(k, ItemOrder(b, today)))
  {
    ItemOrderIsTotalPreorder(b, today);
    SortByStable(list, k, ItemOrder(b, today));
  }

  /** The order accounts are listed in. */
  function DisplayAccounts(accounts: seq<Account>): (r: seq<Account>)
    ensures multiset(r) == multiset(accounts)
    ensures Sorted(r, AccountBefore)
  {
    AccountOrderIsTotalPreorder();
    SortBySorted(accounts, AccountBefore);
    SortBy(accounts, AccountBefore)
  }

  /** Accounts with the same name are listed in storage order. */
  lemma DisplayAccountsStable(accounts: seq<Account>, k: Account)
    ensures Filter(DisplayAccounts(accounts), TiedWith(k, AccountBefore))
         == Filter(accounts, TiedWith(k, AccountBefore))
  {
    AccountOrderIsTotalPreorder();
    SortByStable(accounts, k, AccountBefore);
  }

  /** A bill due before today sorts after every bill due today or later. */
  lemma PassedBillsSortLast(a: Item, b: Item, today: int)
    requires 1 <= today <= 31
    requires a.due.Day? && 1 <= a.due.day < today
    requires b.due.Day? && today <= b.due.day <= 31
    ensures BillsKey(b, today) < BillsKey(a, today)
    ensures !BillsOrder(today)(a, b)
  {
  }

  // ---------------------------------------------------------------------------
  // Due labels

  const Suffixes: seq<string> := ["th", "st", "nd", "rd"]

  /** `s[(v-20)%10] || s[v] || s[0]` with `v = n%100`, JavaScript remainders;
      an index outside 0..3 reads `undefined` and falls through. */
  function OrdinalSuffix(n: int): (r: string)
    ensures r == "th" || r == "st" || r == "nd" || r == "rd"
  {
    var v := TruncMod(n, 100);
    var k := TruncMod(v - 20, 10);
    if 0 <= k <= 3 then Suffixes[k]
    else if 0 <= v <= 3 then Suffixes[v]
    else Suffixes[0]
  }

  /** The English rule, as a reference: 11th-13th, otherwise by the last digit. */
  function EnglishSuffix(n: nat): string
  {
    if 11 <= n % 100 <= 13 then "th"
    else if n % 10 == 1 then "st"
    else if n % 10 == 2 then "nd"
    else if n % 10 == 3 then "rd"
    else "th"
  }

  /** The source's suffix expression follows the English rule for every
      non-negative number and gives "th" for every negative one. */
  lemma OrdinalSuffixIsEnglish(n: int)
    ensures n >= 0 ==> OrdinalSuffix(n) == EnglishSuffix(n)
    ensures n < 0 ==> OrdinalSuffix(n) == "th"
  {
    var v := TruncMod(n, 100);
    if n >= 0 {
      assert v == n % 100;
      assert n % 10 == v % 10;
      if v >= 20 {
        assert TruncMod(v - 20, 10) == v % 10;
      } else {
        assert TruncMod(v - 20, 10) == -((20 - v) % 10);
      }
    } else {
      assert -99 <= v <= 0;
      assert TruncMod(v - 20, 10) <= 0;
    }
  }

  /** `ordinal(n)` (app.js:143-146). */
  function Ordinal(n: int): (r: string)
    ensures n >= 0 ==> r == NatToString(n) + EnglishSuffix(n)
    ensures n < 0 ==> r == "-" + NatToString(-n) + "th"
  {
    OrdinalSuffixIsEnglish(n);
    IntToString(n) + OrdinalSuffix(n)
  }

  /** A label is plain text or a date to be formatted for the user's locale
      (`toLocaleDateString`). */
  datatype Label = Text(text: string) | LocaleDate(iso: string)

  /** The schedule shown under an entry (app.js:193-209). */
  function DueLabel(d: Due): (r: Label)
    ensures r == Text("-") <==> (d.NoDue? || d == Legacy("") || d == Legacy("-"))
    ensures r.LocaleDate? <==> (d.Date? || (d.Legacy? && IsIsoDate(d.text)))
    ensures r.LocaleDate? ==> r.iso == (if d.Date? then d.iso else d.text)
    ensures d.Recurrence? ==> r == Text("Every check") || r == Text("Every month")
    ensures d.Recurrence? ==> (r == Text("Every check") <==> d.every == "every-check")
    ensures d.Day? && d.day >= 0 ==> r == Text(NatToString(d.day) + EnglishSuffix(d.day))
    ensures d.Legacy? && d.text != "" && !IsIsoDate(d.text) ==> r == Text(d.text)
  {
    match d
    case NoDue => Text("-")
    case Recurrence(v) => Text(if v == "every-check" then "Every check" else "Every month")
    case Day(n) => Text(Ordinal(n))
    case Date(v) => LocaleDate(v)
    case Legacy(s) =>
      if s == "" then Text("-")
      else if IsIsoDate(s) then LocaleDate(s)
      else Text(s)
  }

  /** Upgrading a legacy date string does not change what is shown. */
  lemma MigrationKeepsDueLabel(d: Due)
    ensures DueLabel(MigrateDue(d)) == DueLabel(d)
  {
  }

  /** A day-of-month label, for the days a bill can have. */
  lemma DayLabels(n: int)
    requires 1 <= n <= 31
    ensures DueLabel(Day(n)).text == NatToString(n) + EnglishSuffix(n)
  {
    OrdinalSuffixIsEnglish(n);
  }

  // ---------------------------------------------------------------------------
  // HTML escaping

  function EscapeChar(c: char): string
  {
    match c
    case '&' => "&amp;"
    case '<' => "&lt;"
    case '>' => "&gt;"
    case '\'' => "&#39;"
    case '"' => "&quot;"
    case _ => [c]
  }

  /** `escapeHtml`: no markup-significant character survives. */
  function EscapeHtml(s: string): (r: string)
    ensures forall i :: 0 <= i < |r| ==> r[i] != '<' && r[i] != '>' && r[i] != '"' && r[i] != '\''
    ensures |r| >= |s|
  {
    if s == [] then "" else EscapeChar(s[0]) + EscapeHtml(s[1..])
  }

  /** Decoding of the five entities, as a browser reads the escaped text. */
  function UnescapeHtml(s: string): string
    decreases |s|
  {
    if s == [] then ""
    else if "&amp;" <= s then "&" + UnescapeHtml(s[5..])
    else if "&lt;" <= s then "<" + UnescapeHtml(s[4..])
    else if "&gt;" <= s then ">" + UnescapeHtml(s[4..])
    else if "&#39;" <= s then "'" + UnescapeHtml(s[5..])
    else if "&quot;" <= s then "\"" + UnescapeHtml(s[6..])
    else [s[0]] + UnescapeHtml(s[1..])
  }

  lemma UnescapeEscapeChar(c: char, t: string)
    ensures UnescapeHtml(EscapeChar(c) + t) == [c] + UnescapeHtml(t)
  {
    var e := EscapeChar(c) + t;
    if c == '&' {
      assert e[5..] == t;
    } else if c == '<' {
      assert e[4..] == t;
      assert !("&amp;" <= e) by { assert e[1] == 'l'; }
    } else if c == '>' {
      assert e[4..] == t;
      assert !("&amp;" <= e) by { assert e[1] == 'g'; }
      assert !("&lt;" <= e) by { assert e[1] == 'g'; }
    } else if c == '\'' {
      assert e[5..] == t;
      assert !("&amp;" <= e) by { assert e[1] == '#'; }
      assert !("&lt;" <= e) by { assert e[1] == '#'; }
      assert !("&gt;" <= e) by { assert e[1] == '#'; }
    } else if c == '"' {
      assert e[6..] == t;
      assert !("&amp;" <= e) by { assert e[1] == 'q'; }
      assert !("&lt;" <= e) by { assert e[1] == 'q'; }
      assert !("&gt;" <= e) by { assert e[1] == 'q'; }
      assert !("&#39;" <= e) by { assert e[1] == 'q'; }
    } else {
      assert e[0] == c;
      assert e[1..] == t;
    }
  }

  /** What the browser shows is exactly the text that was escaped. */
  lemma {:induction false} EscapeHtmlRoundTrip(s: string)
    ensures UnescapeHtml(EscapeHtml(s)) == s
    decreases |s|
  {
    if s != [] {
      UnescapeEscapeChar(s[0], EscapeHtml(s[1..]));
      EscapeHtmlRoundTrip(s[1..]);
      assert [s[0]] + s[1..] == s;
    }
  }
}

=== FILE: document.dfy ===
/** The budget document: accounts, the item buckets (budget, bills, goals)
    and the informational last-action markers, as held in memory and written
    to the local cache and the remote gist (app.js:6-15). */
module Document {
  import opened Basics

  /** An item's schedule. New items carry a tagged variant chosen by their
      bucket; older data may still hold an untagged string. */
  datatype Due =
    | NoDue                       // absent, `null`, or another falsy value
    | Recurrence(every: string)   // budget: "every-month" or "every-check"
    | Day(day: int)               // bills: day of the month
    | Date(iso: string)           // goals: a date string from a date input
    | Legacy(text: string)        // untagged string from older data

  /** One recorded spend; amounts are integer cents. */
  datatype Spend = Spend(name: string, amount: int, date: string)

  /** A budget, bill or goal entry. `amount` is the authoritative balance that
      edits and transfers change; `spent` is the history of spends against it.
      `neededAmount` and `enableSpending` may be absent in older data. */
  datatype Item = Item(
    id: string,
    name: string,
    amount: int,
    neededAmount: Option<int>,
    due: Due,
    spent: seq<Spend>,
    enableSpending: Option<bool>)

  /** An asset (`isPositive`) or a liability; `amount` is a magnitude in cents. */
  datatype Account = Account(id: string, name: string, amount: int, isPositive: bool)

  datatype ActionKind = Add | Edit | EditAmount | SpendAction {
    /** The `type` string stored in the document. */
    function Label(): string {
      match this
      case Add => "add"
      case Edit => "edit"
      case EditAmount => "edit amount"
      case SpendAction => "spend"
    }
  }

  /** The single per-section marker of the most recent mutation. */
  datatype LastAction = LastAction(kind: ActionKind, name: string, amount: Option<int>, date: string)

  /** A value under a key of `items`: an array of entries, or a last-action
      slot (`Action(None)` is `null`). */
  datatype Slot = Items(list: seq<Item>) | Action(last: Option<LastAction>)

  /** The `_lastSpend` record written by a spend and never read back. */
  datatype SpendNote = SpendNote(bucket: string, itemId: string, name: string, amount: int, date: string, itemName: string)

  /** The root aggregate. `items` is an open key/value object: the three
      buckets, the unused `accounts` array and the `<key>_lastAction` slots. */
  datatype Document = Document(
    accounts: seq<Account>,
    accountsLastAction: Option<LastAction>,
    items: map<string, Slot>,
    lastUpdated: Option<string>,
    lastSpend: Option<SpendNote>)

  /** The serialised form: JSON text is either the document it encodes or
      text that does not parse. */
  datatype Json = Valid(doc: Document) | Malformed(text: string)

  function Serialize(doc: Document): Json
  {
    Valid(doc)
  }

  function Parse(j: Json): (r: Option<Document>)
    ensures r.Some? <==> j.Valid?
  {
    match j
    case Valid(d) => Some(d)
    case Malformed(_) => None
  }

  lemma ParseSerialize(doc: Document)
    ensures Parse(Serialize(doc)) == Some(doc)
  {
  }

  /** The three item buckets; accounts are held outside `items`. */
  datatype Bucket = Budget | Bills | Goals

  function Key(b: Bucket): string
  {
    match b
    case Budget => "budget"
    case Bills => "bills"
    case Goals => "goals"
  }

  const AccountsKey: string := "accounts"
  const LastActionSuffix: string := "_lastAction"

  function LastActionKey(b: Bucket): string
  {
    Key(b) + LastActionSuffix
  }

  /** A reference to one entity, written `acc:<id>` or `<bucket>:<id>` in
      the transfer form. */
  datatype Target = AccountRef(id: string) | ItemRef(bucket: Bucket, id: string)

  /** The document a fresh installation starts with (app.js:6-11). */
  const Empty: Document := Document(
    [], None,
    map[AccountsKey := Items([]), "budget" := Items([]), "bills" := Items([]), "goals" := Items([])],
    None, None)

  // ---------------------------------------------------------------------------
  // Access to the buckets

  /** Whether `items[key]` holds an array. */
  predicate HasBucket(doc: Document, b: Bucket)
  {
    Key(b) in doc.items && doc.items[Key(b)].Items?
  }

  /** `render` gets through: `computeTotals` calls `reduce` on each of the
      three buckets, so one that is missing or not an array throws
      (app.js:270, 276-278). */
  predicate Renders(doc: Document)
  {
    HasBucket(doc, Budget) && HasBucket(doc, Bills) && HasBucket(doc, Goals)
  }

  /** The bucket's entries; a missing or non-array slot reads as empty. */
  function ItemsOf(doc: Document, b: Bucket): seq<Item>
  {
    if HasBucket(doc, b) then doc.items[Key(b)].list else []
  }

  function WithItems(doc: Document, b: Bucket, list: seq<Item>): Document
  {
    doc.(items := doc.items[Key(b) := Items(list)])
  }

  function LastActionOf(doc: Document, b: Bucket): Option<LastAction>
  {
    var k := LastActionKey(b);
    if k in doc.items && doc.items[k].Action? then doc.items[k].last else None
  }

  function WithLastAction(doc: Document, b: Bucket, la: LastAction): Document
  {
    doc.(items := doc.items[LastActionKey(b) := Action(Some(la))])
  }

  /** The id of an account, as a function value for `MapSeq`. */
  function AccountId(a: Account): string
  {
    a.id
  }

  /** The id of an entry. */
  function ItemId(x: Item): string
  {
    x.id
  }

  /** No key of one bucket is the key of another bucket or of a last-action slot. */
  lemma KeysDistinct(b: Bucket, c: Bucket)
    ensures b != c ==> Key(b) != Key(c)
    ensures Key(b) != LastActionKey(c)
  {
    assert |Key(b)| < |LastActionKey(c)|;
  }

  /** `accounts.find(a => a.id === id)`, as an index. */
  function FindAccount(doc: Document, id: string): (r: Option<nat>)
    ensures r.Some? ==> r.value < |doc.accounts| && doc.accounts[r.value].id == id
    ensures r.Some? ==> forall j :: 0 <= j < r.value ==> doc.accounts[j].id != id
    ensures r.None? ==> forall i :: 0 <= i < |doc.accounts| ==> doc.accounts[i].id != id
  {
    var r := FirstIndex(MapSeq(doc.accounts, AccountId), id);
    assert r.None? ==> forall i :: 0 <= i < |doc.accounts| ==> MapSeq(doc.accounts, AccountId)[i] != id;
    assert r.Some? ==> forall j :: 0 <= j < r.value ==> MapSeq(doc.accounts, AccountId)[j] != id;
    r
  }

  /** `items[bucket].find(i => i.id === id)`, as an index; `None` also when
      the bucket slot is missing, where the source throws before changing
      anything. */
  function FindItem(doc: Document, b: Bucket, id: string): (r: Option<nat>)
    ensures r.Some? ==> HasBucket(doc, b) && r.value < |ItemsOf(doc, b)| && ItemsOf(doc, b)[r.value].id == id
    ensures r.Some? ==> forall j :: 0 <= j < r.value ==> ItemsOf(doc, b)[j].id != id
    ensures r.None? ==> !HasBucket(doc, b) || forall i :: 0 <= i < |ItemsOf(doc, b)| ==> ItemsOf(doc, b)[i].id != id
  {
    if HasBucket(doc, b) then
      var r := FirstIndex(MapSeq(ItemsOf(doc, b), ItemId), id);
      assert r.None? ==> forall i :: 0 <= i < |ItemsOf(doc, b)| ==> MapSeq(ItemsOf(doc, b), ItemId)[i] != id;
      assert r.Some? ==> forall j :: 0 <= j < r.value ==> MapSeq(ItemsOf(doc, b), ItemId)[j] != id;
      r
    else None
  }

  /** Every key of `items` other than the listed ones holds what it held. */
  ghost predicate SameSlotsExcept(a: Document, r: Document, keys: set<string>)
  {
    && (forall k :: k in r.items && k !in keys ==> k in a.items)
    && (forall k :: k in a.items && k !in keys ==> k in r.items && r.items[k] == a.items[k])
  }
}

=== FILE: handlers.dfy ===
/** The form handlers that validate user input and then change the document:
    the quick transfer (app.js:477-527), the spend form (app.js:853-882), the
    deletion of one spend entry (app.js:1093-1105) and the add/edit form
    (app.js:1111-1160). Form values arrive already parsed: an amount in
    integer cents (`None` when it does not parse), a day of the month as
    `parseInt` would give it. */
module Handlers {
  import opened Basics
  import opened Document
  import opened Derive
  import opened Mutations

  /** Why a handler refused its input; nothing changes in that case. */
  datatype Refusal = Incomplete | SameEntity | NotFound | NoSpendName | BadSpendAmount | NoName | BadDay {
    /** The alert the user sees. */
    function Message(): string {
      match this
      case Incomplete => "Please select both items and enter a valid amount."
      case SameEntity => "Cannot transfer to the same item."
      case NotFound => "Error finding items."
      case NoSpendName => "Enter a name for the spend"
      case BadSpendAmount => "Enter a valid amount greater than 0"
      case NoName => "Enter a name"
      case BadDay => "Enter valid day 1-31"
    }
  }

  datatype Outcome = Applied(doc: Document) | Refused(reason: Refusal)

  // ---------------------------------------------------------------------------
  // Worth of an entity and shifting it

  /** The id of the target names an existing account or entry. */
  predicate Resolves(doc: Document, t: Target)
  {
    match t
    case AccountRef(id) => FindAccount(doc, id).Some?
    case ItemRef(b, id) => FindItem(doc, b, id).Some?
  }

  /** What an entity is worth: an account's signed amount, an entry's balance. */
  function Worth(doc: Document, t: Target): int
    requires Resolves(doc, t)
  {
    match t
    case AccountRef(id) => Signed(doc.accounts[FindAccount(doc, id).value])
    case ItemRef(b, id) => ItemsOf(doc, b)[FindItem(doc, b, id).value].amount
  }

  /** Sum of the entries' balances (not their remaining balances). */
  function AmountTotal(list: seq<Item>): int
  {
    Sum(seq(|list|, i requires 0 <= i < |list| => list[i].amount))
  }

  /** Everything the document records as owned or set aside. */
  function TotalWorth(doc: Document): int
  {
    AccountsTotal(doc.accounts) + AmountTotal(ItemsOf(doc, Budget)) + AmountTotal(ItemsOf(doc, Bills))
      + AmountTotal(ItemsOf(doc, Goals))
  }

  /** The same ids at the same places: every lookup gives the same answer. */
  predicate SameIds(a: Document, r: Document)
  {
    && MapSeq(r.accounts, AccountId) == MapSeq(a.accounts, AccountId)
    && (forall b: Bucket :: HasBucket(r, b) == HasBucket(a, b))
    && (forall b: Bucket :: MapSeq(ItemsOf(r, b), ItemId) == MapSeq(ItemsOf(a, b), ItemId))
  }

  lemma SameIdsSameLookup(a: Document, r: Document, t: Target)
    requires SameIds(a, r)
    ensures Resolves(r, t) == Resolves(a, t)
    ensures t.AccountRef? ==> FindAccount(r, t.id) == FindAccount(a, t.id)
    ensures t.ItemRef? ==> FindItem(r, t.bucket, t.id) == FindItem(a, t.bucket, t.id)
  {
    if t.ItemRef? {
      assert MapSeq(ItemsOf(r, t.bucket), ItemId) == MapSeq(ItemsOf(a, t.bucket), ItemId);
    }
  }

  /** Which side of a transfer an entity is on. Taking money out lowers an
      asset and an entry, and raises a liability; putting it in does the
      opposite. */
  datatype Direction = Out | In {
    /** The change in signed worth. */
    function Delta(value: int): int {
      match this
      case Out => -value
      case In => value
    }
  }

  /** The per-endpoint rule for an account (app.js:508-511, 515-518). */
  function ShiftAccount(a: Account, dir: Direction, value: int): (r: Account)
    ensures r.id == a.id && r.name == a.name && r.isPositive == a.isPositive
    ensures Signed(r) == Signed(a) + dir.Delta(value)
  {
    match dir
    case Out => if a.isPositive then a.(amount := a.amount - value) else a.(amount := a.amount + value)
    case In => if a.isPositive then a.(amount := a.amount + value) else a.(amount := a.amount - value)
  }

  /** Move `value` out of or into one entity: the per-endpoint rule of the
      transfer (app.js:507-521) and of charging a spend to an account
      (app.js:869-875). Only that entity's amount changes. */
  function Shift(doc: Document, t: Target, dir: Direction, value: int): (r: Document)
    requires Resolves(doc, t)
    ensures r.lastUpdated == doc.lastUpdated && r.lastSpend == doc.lastSpend
    ensures r.accountsLastAction == doc.accountsLastAction
    ensures t.AccountRef? ==>
      var i := FindAccount(doc, t.id).value;
      && r.accounts == doc.accounts[i := ShiftAccount(doc.accounts[i], dir, value)]
      && r.items == doc.items
    ensures t.ItemRef? ==>
      var i := FindItem(doc, t.bucket, t.id).value;
      var it := ItemsOf(doc, t.bucket)[i];
      && ItemsOf(r, t.bucket) == ItemsOf(doc, t.bucket)[i := it.(amount := it.amount + dir.Delta(value))]
      && r.accounts == doc.accounts
      && SameSlotsExcept(doc, r, {Key(t.bucket)})
      && LastActionOf(r, t.bucket) == LastActionOf(doc, t.bucket)
  {
    match t
    case AccountRef(id) =>
      var i := FindAccount(doc, id).value;
      doc.(accounts := doc.accounts[i := ShiftAccount(doc.accounts[i], dir, value)])
    case ItemRef(b, id) =>
      var i := FindItem(doc, b, id).value;
      var it := ItemsOf(doc, b)[i];
      KeysDistinct(b, b);
      SetItem(doc, b, i, it.(amount := it.amount + dir.Delta(value)))
  }

  /** A shift changes amounts only: every lookup still finds the same place. */
  lemma ShiftSameIds(doc: Document, t: Target, dir: Direction, value: int)
    requires Resolves(doc, t)
    ensures SameIds(doc, Shift(doc, t, dir, value))
  {
    var r := Shift(doc, t, dir, value);
    match t
    case AccountRef(id) =>
      assert MapSeq(r.accounts, AccountId) == MapSeq(doc.accounts, AccountId);
    case ItemRef(b, id) =>
      assert MapSeq(ItemsOf(r, b), ItemId) == MapSeq(ItemsOf(doc, b), ItemId);
      forall c: Bucket | c != b
        ensures ItemsOf(r, c) == ItemsOf(doc, c) && HasBucket(r, c) == HasBucket(doc, c)
      {
        KeysDistinct(c, b);
      }
  }

  /** The shifted entity's worth moves by exactly the signed value. */
  lemma ShiftWorth(doc: Document, t: Target, dir: Direction, value: int)
    requires Resolves(doc, t)
    ensures Resolves(Shift(doc, t, dir, value), t)
    ensures Worth(Shift(doc, t, dir, value), t) == Worth(doc, t) + dir.Delta(value)
  {
    ShiftSameIds(doc, t, dir, value);
    SameIdsSameLookup(doc, Shift(doc, t, dir, value), t);
  }

  /** Every other entity keeps its worth. */
  lemma ShiftOtherWorth(doc: Document, t: Target, u: Target, dir: Direction, value: int)
    requires Resolves(doc, t) && Resolves(doc, u) && t != u
    ensures Resolves(Shift(doc, t, dir, value), u)
    ensures Worth(Shift(doc, t, dir, value), u) == Worth(doc, u)
    ensures u.ItemRef? ==>
      var j := FindItem(doc, u.bucket, u.id).value;
      ItemsOf(Shift(doc, t, dir, value), u.bucket)[j] == ItemsOf(doc, u.bucket)[j]
  {
    var r := Shift(doc, t, dir, value);
    ShiftSameIds(doc, t, dir, value);
    SameIdsSameLookup(doc, r, u);
    if u.ItemRef? && t.ItemRef? && u.bucket != t.bucket {
      OtherBucketsUnchanged(doc, r, t.bucket, u.bucket);
    }
  }

  // ---------------------------------------------------------------------------
  // What a shift leaves alone

  /** The account position a target names, if it names an account. */
  function AccountAt(doc: Document, t: Target): Option<nat>
  {
    if t.AccountRef? then FindAccount(doc, t.id) else None
  }

  /** The position in bucket `b` a target names, if it names an entry there. */
  function EntryAt(doc: Document, t: Target, b: Bucket): Option<nat>
  {
    if t.ItemRef? && t.bucket == b then FindItem(doc, b, t.id) else None
  }

  /** The `items` key holding a target's entry. */
  function SlotOf(t: Target): set<string>
  {
    if t.ItemRef? then {Key(t.bucket)} else {}
  }

  /** `r` is `a` with at most the amounts of the entities `f` and `t` changed:
      the same ids in the same places, the same stamps and last actions, every
      other slot, account and entry as it was, and the endpoints changed in
      `amount` alone (name, schedule, spends and flags kept). */
  ghost predicate AmountsOnly(a: Document, r: Document, f: Target, t: Target)
  {
    && SameIds(a, r)
    && r.accountsLastAction == a.accountsLastAction
    && r.lastUpdated == a.lastUpdated && r.lastSpend == a.lastSpend
    && SameSlotsExcept(a, r, SlotOf(f) + SlotOf(t))
    && AccountAmountsOnly(a, r, f, t)
    && EntryAmountsOnly(a, r, f, t)
  }

  ghost predicate AccountAmountsOnly(a: Document, r: Document, f: Target, t: Target)
  {
    && |r.accounts| == |a.accounts|
    && (forall i :: 0 <= i < |a.accounts| ==>
          r.accounts[i] == if Some(i) == AccountAt(a, f) || Some(i) == AccountAt(a, t)
                           then a.accounts[i].(amount := r.accounts[i].amount) else a.accounts[i])
  }

  ghost predicate EntryAmountsOnly(a: Document, r: Document, f: Target, t: Target)
  {
    forall b: Bucket :: ListAmountsOnly(ItemsOf(a, b), ItemsOf(r, b), EntryAt(a, f, b), EntryAt(a, t, b))
  }

  /** `ys` is `xs` with at most the amounts at positions `p` and `q` changed. */
  ghost predicate ListAmountsOnly(xs: seq<Item>, ys: seq<Item>, p: Option<nat>, q: Option<nat>)
  {
    && |ys| == |xs|
    && forall i :: 0 <= i < |xs| ==>
         ys[i] == if Some(i) == p || Some(i) == q then xs[i].(amount := ys[i].amount) else xs[i]
  }

  /** A shift changes the amount of its one entity and nothing else. */
  lemma ShiftAmountsOnly(doc: Document, t: Target, dir: Direction, value: int)
    requires Resolves(doc, t)
    ensures AmountsOnly(doc, Shift(doc, t, dir, value), t, t)
  {
    var r := Shift(doc, t, dir, value);
    ShiftSameIds(doc, t, dir, value);
    match t
    case AccountRef(id) =>
    case ItemRef(b, id) =>
      forall c: Bucket | c != b
        ensures ItemsOf(r, c) == ItemsOf(doc, c)
      {
        KeysDistinct(c, b);
      }
  }

  /** Two shifts in a row change at most the amounts of their two entities. */
  lemma AmountsOnlyCompose(a: Document, m: Document, r: Document, f: Target, t: Target)
    requires AmountsOnly(a, m, f, f) && AmountsOnly(m, r, t, t)
    ensures AmountsOnly(a, r, f, t)
  {
    SameIdsSameLookup(a, m, t);
    SameIdsTransitive(a, m, r);
    AccountAmountsCompose(a, m, r, f, t);
    EntryAmountsCompose(a, m, r, f, t);
  }

  lemma SameIdsTransitive(a: Document, m: Document, r: Document)
    requires SameIds(a, m) && SameIds(m, r)
    ensures SameIds(a, r)
  {
    forall b: Bucket
      ensures MapSeq(ItemsOf(r, b), ItemId) == MapSeq(ItemsOf(a, b), ItemId)
    {
      assert MapSeq(ItemsOf(r, b), ItemId) == MapSeq(ItemsOf(m, b), ItemId);
    }
  }

  lemma AccountAmountsCompose(a: Document, m: Document, r: Document, f: Target, t: Target)
    requires AccountAmountsOnly(a, m, f, f) && AccountAmountsOnly(m, r, t, t)
    requires AccountAt(m, t) == AccountAt(a, t)
    ensures AccountAmountsOnly(a, r, f, t)
  {
    forall i | 0 <= i < |a.accounts|
      ensures r.accounts[i] == if Some(i) == AccountAt(a, f) || Some(i) == AccountAt(a, t)
                               then a.accounts[i].(amount := r.accounts[i].amount) else a.accounts[i]
    {
      assert m.accounts[i] == if Some(i) == AccountAt(a, f) then a.accounts[i].(amount := m.accounts[i].amount) else a.accounts[i];
      assert r.accounts[i] == if Some(i) == AccountAt(m, t) then m.accounts[i].(amount := r.accounts[i].amount) else m.accounts[i];
    }
  }

  lemma EntryAmountsCompose(a: Document, m: Document, r: Document, f: Target, t: Target)
    requires EntryAmountsOnly(a, m, f, f) && EntryAmountsOnly(m, r, t, t)
    requires t.ItemRef? ==> FindItem(m, t.bucket, t.id) == FindItem(a, t.bucket, t.id)
    ensures EntryAmountsOnly(a, r, f, t)
  {
    forall b: Bucket
      ensures ListAmountsOnly(ItemsOf(a, b), ItemsOf(r, b), EntryAt(a, f, b), EntryAt(a, t, b))
    {
      assert EntryAt(m, t, b) == EntryAt(a, t, b);
      ListAmountsCompose(ItemsOf(a, b), ItemsOf(m, b), ItemsOf(r, b), EntryAt(a, f, b), EntryAt(a, t, b));
    }
  }

  lemma ListAmountsCompose(xs: seq<Item>, ys: seq<Item>, zs: seq<Item>, p: Option<nat>, q: Option<nat>)
    requires ListAmountsOnly(xs, ys, p, p) && ListAmountsOnly(ys, zs, q, q)
    ensures ListAmountsOnly(xs, zs, p, q)
  {
    forall i | 0 <= i < |xs|
      ensures zs[i] == if Some(i) == p || Some(i) == q then xs[i].(amount := zs[i].amount) else xs[i]
    {
      assert ys[i] == if Some(i) == p then xs[i].(amount := ys[i].amount) else xs[i];
      assert zs[i] == if Some(i) == q then ys[i].(amount := zs[i].amount) else ys[i];
    }
  }

  /** Replacing one entry changes the balance sum by the change in its balance. */
  lemma AmountTotalUpdate(list: seq<Item>, i: nat, x: Item)
    requires i < |list|
    ensures AmountTotal(list[i := x]) == AmountTotal(list) - list[i].amount + x.amount
  {
    var amounts := seq(|list|, j requires 0 <= j < |list| => list[j].amount);
    var list' := list[i := x];
    assert seq(|list'|, j requires 0 <= j < |list'| => list'[j].amount) == amounts[i := x.amount];
    SumUpdate(amounts, i, x.amount);
  }

  /** A change confined to one bucket's slots moves the total worth by the
      change in that bucket's balance sum. */
  lemma TotalWorthAfterBucketChange(doc: Document, r: Document, b: Bucket)
    requires r.accounts == doc.accounts
    requires SameSlotsExcept(doc, r, {Key(b), LastActionKey(b)})
    ensures TotalWorth(r) == TotalWorth(doc) - AmountTotal(ItemsOf(doc, b)) + AmountTotal(ItemsOf(r, b))
  {
    forall c: Bucket | c != b
      ensures ItemsOf(r, c) == ItemsOf(doc, c)
    {
      OtherBucketsUnchanged(doc, r, b, c);
    }
  }

  /** A shift moves the total worth by its signed value. */
  lemma ShiftTotalWorth(doc: Document, t: Target, dir: Direction, value: int)
    requires Resolves(doc, t)
    ensures TotalWorth(Shift(doc, t, dir, value)) == TotalWorth(doc) + dir.Delta(value)
  {
    if t.AccountRef? {
      ShiftAccountTotalWorth(doc, t.id, dir, value);
    } else {
      ShiftEntryTotalWorth(doc, t.bucket, t.id, dir, value);
    }
  }

  lemma ShiftAccountTotalWorth(doc: Document, id: string, dir: Direction, value: int)
    requires FindAccount(doc, id).Some?
    ensures TotalWorth(Shift(doc, AccountRef(id), dir, value)) == TotalWorth(doc) + dir.Delta(value)
  {
    var r := Shift(doc, AccountRef(id), dir, value);
    var i := FindAccount(doc, id).value;
    AccountsTotalUpdate(doc.accounts, i, ShiftAccount(doc.accounts[i], dir, value));
    assert r.items == doc.items;
  }

  lemma ShiftEntryTotalWorth(doc: Document, b: Bucket, id: string, dir: Direction, value: int)
    requires FindItem(doc, b, id).Some?
    ensures TotalWorth(Shift(doc, ItemRef(b, id), dir, value)) == TotalWorth(doc) + dir.Delta(value)
  {
    var r := Shift(doc, ItemRef(b, id), dir, value);
    var i := FindItem(doc, b, id).value;
    var it := ItemsOf(doc, b)[i];
    AmountTotalUpdate(ItemsOf(doc, b), i, it.(amount := it.amount + dir.Delta(value)));
    TotalWorthAfterBucketChange(doc, r, b);
  }

  /** Shifting an account moves the available figure by the signed value. */
  lemma ShiftAccountAvailable(doc: Document, id: string, dir: Direction, value: int)
    requires FindAccount(doc, id).Some?
    ensures Available(Shift(doc, AccountRef(id), dir, value)) == Available(doc) + dir.Delta(value)
  {
    var r := Shift(doc, AccountRef(id), dir, value);
    var i := FindAccount(doc, id).value;
    AccountsTotalUpdate(doc.accounts, i, ShiftAccount(doc.accounts[i], dir, value));
    assert r.items == doc.items;
  }

  /** Shifting an entry whose remaining balance is non-negative before and
      after moves the available figure the opposite way: money put into an
      entry is committed, money taken out is freed. */
  lemma ShiftEntryAvailable(doc: Document, b: Bucket, id: string, dir: Direction, value: int)
    requires FindItem(doc, b, id).Some?
    requires var it := ItemsOf(doc, b)[FindItem(doc, b, id).value];
      Remaining(it) >= 0 && Remaining(it) + dir.Delta(value) >= 0
    ensures Available(Shift(doc, ItemRef(b, id), dir, value)) == Available(doc) - dir.Delta(value)
  {
    var r := Shift(doc, ItemRef(b, id), dir, value);
    var i := FindItem(doc, b, id).value;
    var it := ItemsOf(doc, b)[i];
    var it' := it.(amount := it.amount + dir.Delta(value));
    assert Remaining(it') == Remaining(it) + dir.Delta(value);
    assert Contribution(it) == Remaining(it) && Contribution(it') == Remaining(it');
    assert ItemsOf(r, b) == ItemsOf(doc, b)[i := it'];
    SectionTotalUpdate(ItemsOf(doc, b), i, it');
    assert BucketTotal(r, b) == BucketTotal(doc, b) + dir.Delta(value);
    AvailableAfterBucketChange(doc, r, b);
  }

  // ---------------------------------------------------------------------------
  // Quick transfer

  /** The transfer button: both endpoints chosen and a positive amount, two
      different entities, both found; then the source loses `amount` of worth
      and the destination gains it. `None` stands for an empty selection or
      an amount that does not parse. */
  function Transfer(doc: Document, from: Option<Target>, to: Option<Target>, amount: Option<int>): (r: Outcome)
    ensures r == Refused(Incomplete) <==> from.None? || to.None? || amount.None? || amount.value <= 0
    ensures r == Refused(SameEntity) <==>
      from.Some? && to.Some? && amount.Some? && amount.value > 0 && from == to
    ensures r == Refused(NotFound) <==>
      from.Some? && to.Some? && amount.Some? && amount.value > 0 && from != to
      && !(Resolves(doc, from.value) && Resolves(doc, to.value))
    ensures r.Applied? ==>
      && from.Some? && to.Some? && amount.Some? && amount.value > 0 && from != to
      && Resolves(doc, from.value) && Resolves(doc, to.value)
      && Resolves(r.doc, from.value) && Resolves(r.doc, to.value)
      && Worth(r.doc, from.value) == Worth(doc, from.value) - amount.value
      && Worth(r.doc, to.value) == Worth(doc, to.value) + amount.value
  {
    if from.None? || to.None? || amount.None? || amount.value <= 0 then Refused(Incomplete)
    else if from == to then Refused(SameEntity)
    else if !(Resolves(doc, from.value) && Resolves(doc, to.value)) then Refused(NotFound)
    else Applied(Move(doc, from.value, to.value, amount.value))
  }

  /** Take `value` out of `f`, then put it into `t`. */
  function Move(doc: Document, f: Target, t: Target, value: int): (r: Document)
    requires Resolves(doc, f) && Resolves(doc, t) && f != t
    ensures Resolves(r, f) && Resolves(r, t)
    ensures Worth(r, f) == Worth(doc, f) - value
    ensures Worth(r, t) == Worth(doc, t) + value
  {
    ShiftOtherWorth(doc, f, t, Out, value);
    ShiftWorth(doc, f, Out, value);
    var d1 := Shift(doc, f, Out, value);
    ShiftWorth(d1, t, In, value);
    ShiftOtherWorth(d1, t, f, In, value);
    Shift(d1, t, In, value)
  }

  /** A move neither creates nor destroys worth. */
  lemma MoveConservesWorth(doc: Document, f: Target, t: Target, value: int)
    requires Resolves(doc, f) && Resolves(doc, t) && f != t
    ensures TotalWorth(Move(doc, f, t, value)) == TotalWorth(doc)
  {
    ShiftOtherWorth(doc, f, t, Out, value);
    ShiftTotalWorth(doc, f, Out, value);
    ShiftTotalWorth(Shift(doc, f, Out, value), t, In, value);
  }

  /** A transfer changes the two endpoints' amounts and nothing else: no
      spend list, name, schedule, flag, stamp, last action or other entity. */
  lemma TransferChangesOnlyAmounts(doc: Document, from: Option<Target>, to: Option<Target>, amount: Option<int>)
    requires Transfer(doc, from, to, amount).Applied?
    ensures AmountsOnly(doc, Transfer(doc, from, to, amount).doc, from.value, to.value)
  {
    var f, t, v := from.value, to.value, amount.value;
    var d1 := Shift(doc, f, Out, v);
    ShiftAmountsOnly(doc, f, Out, v);
    SameIdsSameLookup(doc, d1, t);
    ShiftAmountsOnly(d1, t, In, v);
    AmountsOnlyCompose(doc, d1, Shift(d1, t, In, v), f, t);
  }

  /** A transfer neither creates nor destroys worth. */
  lemma TransferConservesWorth(doc: Document, from: Option<Target>, to: Option<Target>, amount: Option<int>)
    requires Transfer(doc, from, to, amount).Applied?
    ensures TotalWorth(Transfer(doc, from, to, amount).doc) == TotalWorth(doc)
  {
    MoveConservesWorth(doc, from.value, to.value, amount.value);
  }

  lemma MoveBetweenAccountsKeepsAvailable(doc: Document, from: string, to: string, value: int)
    requires FindAccount(doc, from).Some? && FindAccount(doc, to).Some? && from != to
    ensures Available(Move(doc, AccountRef(from), AccountRef(to), value)) == Available(doc)
  {
    ShiftOtherWorth(doc, AccountRef(from), AccountRef(to), Out, value);
    ShiftAccountAvailable(doc, from, Out, value);
    ShiftAccountAvailable(Shift(doc, AccountRef(from), Out, value), to, In, value);
  }

  /** Moving money between two accounts leaves the available figure alone. */
  lemma TransferBetweenAccountsKeepsAvailable(doc: Document, from: string, to: string, amount: int)
    requires Transfer(doc, Some(AccountRef(from)), Some(AccountRef(to)), Some(amount)).Applied?
    ensures Available(Transfer(doc, Some(AccountRef(from)), Some(AccountRef(to)), Some(amount)).doc) == Available(doc)
  {
    MoveBetweenAccountsKeepsAvailable(doc, from, to, amount);
  }

  lemma MoveBetweenEntriesKeepsAvailable(doc: Document, from: Target, to: Target, value: int)
    requires from.ItemRef? && to.ItemRef? && from != to && value > 0
    requires Resolves(doc, from) && Resolves(doc, to)
    requires Remaining(ItemsOf(doc, from.bucket)[FindItem(doc, from.bucket, from.id).value]) >= value
    requires Remaining(ItemsOf(doc, to.bucket)[FindItem(doc, to.bucket, to.id).value]) >= 0
    ensures Available(Move(doc, from, to, value)) == Available(doc)
  {
    var d1 := Shift(doc, from, Out, value);
    ShiftOtherWorth(doc, from, to, Out, value);
    ShiftSameIds(doc, from, Out, value);
    SameIdsSameLookup(doc, d1, to);
    ShiftEntryAvailable(doc, from.bucket, from.id, Out, value);
    ShiftEntryAvailable(d1, to.bucket, to.id, In, value);
  }

  /** Moving money between two entries leaves the available figure alone
      when the source still covers the amount and the destination is not
      overspent. */
  lemma TransferBetweenEntriesKeepsAvailable(doc: Document, from: Target, to: Target, amount: int)
    requires from.ItemRef? && to.ItemRef?
    requires Transfer(doc, Some(from), Some(to), Some(amount)).Applied?
    requires Remaining(ItemsOf(doc, from.bucket)[FindItem(doc, from.bucket, from.id).value]) >= amount
    requires Remaining(ItemsOf(doc, to.bucket)[FindItem(doc, to.bucket, to.id).value]) >= 0
    ensures Available(Transfer(doc, Some(from), Some(to), Some(amount)).doc) == Available(doc)
  {
    MoveBetweenEntriesKeepsAvailable(doc, from, to, amount);
  }

  /** Moving money from an account into an entry that is not overspent
      lowers the available figure twice over: once as the account shrinks
      and once as the entry commits the same amount. */
  lemma TransferAccountToEntryAvailable(doc: Document, from: string, to: Target, amount: int)
    requires to.ItemRef?
    requires Transfer(doc, Some(AccountRef(from)), Some(to), Some(amount)).Applied?
    requires Remaining(ItemsOf(doc, to.bucket)[FindItem(doc, to.bucket, to.id).value]) >= 0
    ensures Available(Transfer(doc, Some(AccountRef(from)), Some(to), Some(amount)).doc) == Available(doc) - 2 * amount
  {
    var f := AccountRef(from);
    var d1 := Shift(doc, f, Out, amount);
    ShiftAccountAvailable(doc, from, Out, amount);
    ShiftOtherWorth(doc, f, to, Out, amount);
    ShiftSameIds(doc, f, Out, amount);
    SameIdsSameLookup(doc, d1, to);
    ShiftEntryAvailable(d1, to.bucket, to.id, In, amount);
  }

  // ---------------------------------------------------------------------------
  // Spend form

  /** The spend button: a name and a positive amount are required; the spend
      is recorded on the entry and, when an account was chosen and exists,
      charged to it (an asset loses the amount, a liability's debt grows by
      it). When the entry's bucket is missing, recording the spend throws
      before the charge, so nothing changes. */
  function SubmitSpend(doc: Document, b: Bucket, itemId: string, name: string, amount: int,
                       charge: Option<string>, now: string): (r: Outcome)
    ensures r == Refused(NoSpendName) <==> name == []
    ensures r == Refused(BadSpendAmount) <==> name != [] && amount <= 0
    ensures r.Applied? <==> name != [] && amount > 0
    ensures r.Applied? && !HasBucket(doc, b) ==> r.doc == doc
    ensures r.Applied? && HasBucket(doc, b) ==>
      var spent := AddSpending(doc, b, itemId, name, amount, now);
      && r.doc.items == spent.items
      && r.doc.lastUpdated == spent.lastUpdated
      && r.doc.lastSpend == spent.lastSpend
      && r.doc.accountsLastAction == doc.accountsLastAction
      && (if charge.Some? && FindAccount(spent, charge.value).Some? then
            var i := FindAccount(spent, charge.value).value;
            r.doc.accounts == doc.accounts[i := ShiftAccount(doc.accounts[i], Out, amount)]
          else r.doc.accounts == doc.accounts)
  {
    if name == [] then Refused(NoSpendName)
    else if amount <= 0 then Refused(BadSpendAmount)
    else if !HasBucket(doc, b) then Applied(doc)
    else
      var spent := AddSpending(doc, b, itemId, name, amount, now);
      if charge.Some? && FindAccount(spent, charge.value).Some? then
        Applied(Shift(spent, AccountRef(charge.value), Out, amount))
      else Applied(spent)
  }

  /** A spend charged to an account, against an entry that still covers it,
      leaves the available figure unchanged: the account and the entry both
      go down by the amount. */
  lemma ChargedSpendKeepsAvailable(doc: Document, b: Bucket, itemId: string, name: string, amount: int,
                                   accountId: string, now: string)
    requires name != [] && amount > 0
    requires FindItem(doc, b, itemId).Some?
    requires Remaining(ItemsOf(doc, b)[FindItem(doc, b, itemId).value]) >= amount
    requires FindAccount(doc, accountId).Some?
    ensures Available(SubmitSpend(doc, b, itemId, name, amount, Some(accountId), now).doc) == Available(doc)
  {
    AddSpendingAvailable(doc, b, itemId, name, amount, now);
    ShiftAccountAvailable(AddSpending(doc, b, itemId, name, amount, now), accountId, Out, amount);
  }

  /** Without an account, a spend covered by its entry frees nothing and
      commits nothing new: the available figure rises by the amount, since
      only the entry's remaining balance goes down. */
  lemma UnchargedSpendRaisesAvailable(doc: Document, b: Bucket, itemId: string, name: string, amount: int, now: string)
    requires name != [] && amount > 0
    requires FindItem(doc, b, itemId).Some?
    requires Remaining(ItemsOf(doc, b)[FindItem(doc, b, itemId).value]) >= amount
    ensures Available(SubmitSpend(doc, b, itemId, name, amount, None, now).doc) == Available(doc) + amount
  {
    AddSpendingAvailable(doc, b, itemId, name, amount, now);
  }

  // ---------------------------------------------------------------------------
  // Deleting a spend entry

  /** The delete button of one history row: remove the spend at `index`
      when there is one; the balance and last-action slots are untouched. */
  function DeleteSpendEntry(doc: Document, b: Bucket, itemId: string, index: int): (r: Document)
    ensures FindItem(doc, b, itemId).None? ==> r == doc
    ensures FindItem(doc, b, itemId).Some? ==>
      var i := FindItem(doc, b, itemId).value;
      var it := ItemsOf(doc, b)[i];
      && (!(0 <= index < |it.spent|) ==> r == doc)
      && (0 <= index < |it.spent| ==>
            && ItemsOf(r, b) == ItemsOf(doc, b)[i := it.(spent := RemoveAt(it.spent, index))]
            && Remaining(ItemsOf(r, b)[i]) == Remaining(it) + it.spent[index].amount
            && r.accounts == doc.accounts
            && SameSlotsExcept(doc, r, {Key(b)}))
    ensures r.accountsLastAction == doc.accountsLastAction
    ensures r.lastUpdated == doc.lastUpdated && r.lastSpend == doc.lastSpend
  {
    match FindItem(doc, b, itemId)
    case None => doc
    case Some(i) =>
      var it := ItemsOf(doc, b)[i];
      if 0 <= index < |it.spent| then
        RemainingAfterRemoveSpend(it, index);
        SetItem(doc, b, i, it.(spent := RemoveAt(it.spent, index)))
      else doc
  }

  /** Deleting the spend just recorded restores the bucket's entries. */
  lemma DeleteUndoesAddSpending(doc: Document, b: Bucket, itemId: string, name: string, amount: int, now: string)
    requires FindItem(doc, b, itemId).Some?
    ensures var it := ItemsOf(doc, b)[FindItem(doc, b, itemId).value];
      var r := DeleteSpendEntry(AddSpending(doc, b, itemId, name, amount, now), b, itemId, |it.spent|);
      ItemsOf(r, b) == ItemsOf(doc, b) && r.accounts == doc.accounts
  {
    var i := FindItem(doc, b, itemId).value;
    var it := ItemsOf(doc, b)[i];
    var d1 := AddSpending(doc, b, itemId, name, amount, now);
    AddSpendingLowersRemaining(doc, b, itemId, name, amount, now);
    var grown := it.spent + [Spend(name, amount, now)];
    assert RemoveAt(grown, |it.spent|) == it.spent;
    assert ItemsOf(doc, b)[i := it] == ItemsOf(doc, b);
  }

  // ---------------------------------------------------------------------------
  // Add/edit form

  /** `Math.abs(newAmount - oldRemaining) > 0.001` on dollar values. */
  predicate AmountChanged(newAmount: int, oldRemaining: int)
  {
    var diff := (newAmount - oldRemaining) as real / 100.0;
    (if diff < 0.0 then -diff else diff) > 0.001
  }

  /** On whole cents the tolerance only hides equality. */
  lemma AmountChangedIffDiffers(newAmount: int, oldRemaining: int)
    ensures AmountChanged(newAmount, oldRemaining) <==> newAmount != oldRemaining
  {
    var d := newAmount - oldRemaining;
    if d > 0 {
      assert d as real / 100.0 >= 0.01;
    } else if d < 0 {
      assert d as real / 100.0 <= -0.01;
    }
  }

  datatype Section = AccountsSection | BucketSection(bucket: Bucket)

  /** The `_item_due` control, as the form builds it for each section. */
  datatype DueField =
    | Checkbox(checked: bool)             // accounts: "is an asset"
    | RecurrenceSelect(value: string)     // budget
    | DayText(parsed: Option<int>)        // bills: `parseInt` of the text, `None` for NaN
    | DateInput(value: string)            // goals

  predicate FieldFits(s: Section, f: DueField)
  {
    match s
    case AccountsSection => f.Checkbox?
    case BucketSection(Budget) => f.RecurrenceSelect?
    case BucketSection(Bills) => f.DayText?
    case BucketSection(Goals) => f.DateInput?
  }

  /** The form's values; a blank amount or target reads as 0. */
  datatype ItemForm = ItemForm(name: string, amount: int, neededAmount: int, due: DueField, enableSpending: bool)

  datatype FormMode = Adding(newId: string) | Editing(id: string)

  predicate DayAccepted(f: DueField)
  {
    f.DayText? ==> f.parsed.Some? && 1 <= f.parsed.value <= 31
  }

  /** The schedule an entry gets from the form. */
  function DueOf(f: DueField): Due
    requires DayAccepted(f)
  {
    match f
    case Checkbox(_) => NoDue
    case RecurrenceSelect(v) => Recurrence(v)
    case DayText(d) => Day(d.value)
    case DateInput(v) => Date(v)
  }

  /** The save button. A name is required and a bills day must be 1-31.
      Adding appends with the typed target (blank meaning 0). Editing an
      account overwrites its fields; editing an entry first replaces its
      balance and clears its history when the typed amount differs from the
      remaining balance, then overwrites the other fields keeping the
      balance as it now stands. */
  function SubmitItemForm(doc: Document, s: Section, mode: FormMode, form: ItemForm, now: string): (r: Outcome)
    requires FieldFits(s, form.due)
    requires mode.Adding? && s.AccountsSection? ==> FindAccount(doc, mode.newId).None?
    requires mode.Adding? && s.BucketSection? ==> FindItem(doc, s.bucket, mode.newId).None?
    ensures r == Refused(NoName) <==> form.name == []
    ensures r == Refused(BadDay) <==> form.name != [] && !DayAccepted(form.due)
    ensures r.Applied? <==> form.name != [] && DayAccepted(form.due)
    ensures r.Applied? && s.AccountsSection? && mode.Adding? ==>
      && r.doc.accounts == doc.accounts + [Account(mode.newId, form.name, form.amount, form.due.checked)]
      && r.doc.accountsLastAction == Some(LastAction(Add, form.name, None, now))
      && r.doc.items == doc.items
    ensures r.Applied? && s.AccountsSection? && mode.Editing? && FindAccount(doc, mode.id).Some? ==>
      var i := FindAccount(doc, mode.id).value;
      && r.doc.accounts == doc.accounts[i := doc.accounts[i].(name := form.name, amount := form.amount,
                                                              isPositive := form.due.checked)]
      && r.doc.accountsLastAction == Some(LastAction(Edit, form.name, None, now))
      && r.doc.items == doc.items
    ensures r.Applied? && s.AccountsSection? && mode.Editing? && FindAccount(doc, mode.id).None? ==> r.doc == doc
  {
    if form.name == [] then Refused(NoName)
    else if !DayAccepted(form.due) then Refused(BadDay)
    else
      match s
      case AccountsSection =>
        var isPositive := form.due.checked;
        (match mode
         case Adding(id) =>
           Applied(AddItem(doc, NewAccount(form.name, form.amount, isPositive), id, now))
         case Editing(id) =>
           Applied(UpdateItem(doc, AccountEdit(id, form.name, form.amount, isPositive), now)))
      case BucketSection(b) =>
        var due := DueOf(form.due);
        (match mode
         case Adding(id) =>
           Applied(AddItem(doc, NewItem(b, form.name, form.amount, Some(form.neededAmount), due,
                                        Some(form.enableSpending)), id, now))
         case Editing(id) =>
           if FindItem(doc, b, id).None? then Applied(doc)
           else
             var it := ItemsOf(doc, b)[FindItem(doc, b, id).value];
             var d1 := if AmountChanged(form.amount, Remaining(it))
                       then UpdateItemAmountAndResetSpent(doc, ItemRef(b, id), form.amount, now)
                       else doc;
             var current := ItemsOf(d1, b)[FindItem(doc, b, id).value].amount;
             Applied(UpdateItem(d1, ItemEdit(b, id, form.name, current, due, Some(form.neededAmount),
                                             Some(form.enableSpending)), now)))
  }

  /** The entry at `i` of bucket `b` shows what the form held: the typed
      name, schedule, target and spending switch, and exactly the typed
      remaining balance; the edit is the bucket's last action. */
  ghost predicate ShowsForm(r: Document, b: Bucket, id: string, i: nat, form: ItemForm, now: string)
    requires DayAccepted(form.due)
  {
    && FindItem(r, b, id) == Some(i)
    && Remaining(ItemsOf(r, b)[i]) == form.amount
    && ItemsOf(r, b)[i].name == form.name
    && ItemsOf(r, b)[i].due == DueOf(form.due)
    && ItemsOf(r, b)[i].neededAmount == Some(form.neededAmount)
    && ItemsOf(r, b)[i].enableSpending == Some(form.enableSpending)
    && LastActionOf(r, b) == Some(LastAction(Edit, form.name, None, now))
  }

  /** Saving an edited entry leaves it showing exactly what was typed, keeps
      its history when the amount was not changed and clears it when it was. */
  lemma EditEntryEffect(doc: Document, b: Bucket, id: string, form: ItemForm, now: string)
    requires FieldFits(BucketSection(b), form.due)
    requires form.name != [] && DayAccepted(form.due)
    requires FindItem(doc, b, id).Some?
    ensures var i := FindItem(doc, b, id).value;
      var it := ItemsOf(doc, b)[i];
      var r := SubmitItemForm(doc, BucketSection(b), Editing(id), form, now).doc;
      && ShowsForm(r, b, id, i, form, now)
      && (form.amount == Remaining(it) ==> ItemsOf(r, b)[i].spent == it.spent)
      && (form.amount != Remaining(it) ==> ItemsOf(r, b)[i].spent == [])
      && r.accounts == doc.accounts
  {
    var it := ItemsOf(doc, b)[FindItem(doc, b, id).value];
    AmountChangedIffDiffers(form.amount, Remaining(it));
    if form.amount == Remaining(it) {
      EditKeepingAmount(doc, b, id, form, now);
    } else {
      EditChangingAmount(doc, b, id, form, now);
    }
  }

  /** An edit's overwrite step keeps the entry where its id finds it. */
  lemma EditStep(d: Document, b: Bucket, id: string, form: ItemForm, amount: int, now: string)
    requires DayAccepted(form.due)
    requires FindItem(d, b, id).Some?
    ensures var i := FindItem(d, b, id).value;
      var r := UpdateItem(d, ItemEdit(b, id, form.name, amount, DueOf(form.due), Some(form.neededAmount),
                                     Some(form.enableSpending)), now);
      && FindItem(r, b, id) == Some(i)
      && ItemsOf(r, b)[i] == ItemsOf(d, b)[i].(name := form.name, amount := amount, due := DueOf(form.due),
                                               neededAmount := Some(form.neededAmount),
                                               enableSpending := Some(form.enableSpending))
      && LastActionOf(r, b) == Some(LastAction(Edit, form.name, None, now))
      && r.accounts == d.accounts
  {
    var r := UpdateItem(d, ItemEdit(b, id, form.name, amount, DueOf(form.due), Some(form.neededAmount),
                                    Some(form.enableSpending)), now);
    assert MapSeq(ItemsOf(r, b), ItemId) == MapSeq(ItemsOf(d, b), ItemId);
  }

  lemma EditKeepingAmount(doc: Document, b: Bucket, id: string, form: ItemForm, now: string)
    requires FieldFits(BucketSection(b), form.due)
    requires form.name != [] && DayAccepted(form.due)
    requires FindItem(doc, b, id).Some?
    requires form.amount == Remaining(ItemsOf(doc, b)[FindItem(doc, b, id).value])
    ensures var i := FindItem(doc, b, id).value;
      var r := SubmitItemForm(doc, BucketSection(b), Editing(id), form, now).doc;
      && ShowsForm(r, b, id, i, form, now)
      && ItemsOf(r, b)[i].spent == ItemsOf(doc, b)[i].spent
      && r.accounts == doc.accounts
  {
    var it := ItemsOf(doc, b)[FindItem(doc, b, id).value];
    AmountChangedIffDiffers(form.amount, Remaining(it));
    EditStep(doc, b, id, form, it.amount, now);
  }

  lemma EditChangingAmount(doc: Document, b: Bucket, id: string, form: ItemForm, now: string)
    requires FieldFits(BucketSection(b), form.due)
    requires form.name != [] && DayAccepted(form.due)
    requires FindItem(doc, b, id).Some?
    requires form.amount != Remaining(ItemsOf(doc, b)[FindItem(doc, b, id).value])
    ensures var i := FindItem(doc, b, id).value;
      var r := SubmitItemForm(doc, BucketSection(b), Editing(id), form, now).doc;
      && ShowsForm(r, b, id, i, form, now)
      && ItemsOf(r, b)[i].spent == []
      && r.accounts == doc.accounts
  {
    var i := FindItem(doc, b, id).value;
    var it := ItemsOf(doc, b)[i];
    AmountChangedIffDiffers(form.amount, Remaining(it));
    var d1 := UpdateItemAmountAndResetSpent(doc, ItemRef(b, id), form.amount, now);
    assert FindItem(d1, b, id) == Some(i) by {
      assert MapSeq(ItemsOf(d1, b), ItemId) == MapSeq(ItemsOf(doc, b), ItemId);
    }
    EditStep(d1, b, id, form, form.amount, now);
  }

  /** Adding an entry through the form: a blank target is stored as 0, not
      defaulted to the amount, because the form always passes a number. */
  lemma AddEntryTarget(doc: Document, b: Bucket, id: string, form: ItemForm, now: string)
    requires FieldFits(BucketSection(b), form.due)
    requires form.name != [] && DayAccepted(form.due)
    requires FindItem(doc, b, id).None?
    ensures var r := SubmitItemForm(doc, BucketSection(b), Adding(id), form, now).doc;
      && |ItemsOf(r, b)| == |ItemsOf(doc, b)| + 1
      && ItemsOf(r, b)[..|ItemsOf(doc, b)|] == ItemsOf(doc, b)
      && ItemsOf(r, b)[|ItemsOf(doc, b)|].id == id
      && ItemsOf(r, b)[|ItemsOf(doc, b)|].name == form.name
      && ItemsOf(r, b)[|ItemsOf(doc, b)|].due == DueOf(form.due)
      && ItemsOf(r, b)[|ItemsOf(doc, b)|].spent == []
      && ItemsOf(r, b)[|ItemsOf(doc, b)|].neededAmount == Some(form.neededAmount)
      && ItemsOf(r, b)[|ItemsOf(doc, b)|].enableSpending == Some(form.enableSpending)
      && Remaining(ItemsOf(r, b)[|ItemsOf(doc, b)|]) == form.amount
  {
  }

  /** Saving the form for an account: the account its id finds shows what
      was typed, and the available figure moves by the change in its signed
      amount (an added account counts from nothing). */
  lemma AccountFormEffect(doc: Document, mode: FormMode, form: ItemForm, now: string)
    requires FieldFits(AccountsSection, form.due)
    requires form.name != []
    requires mode.Adding? ==> FindAccount(doc, mode.newId).None?
    requires mode.Editing? ==> FindAccount(doc, mode.id).Some?
    ensures var r := SubmitItemForm(doc, AccountsSection, mode, form, now).doc;
      var typed := Account(if mode.Adding? then mode.newId else mode.id, form.name, form.amount, form.due.checked);
      && (mode.Adding? ==>
            && FindAccount(r, mode.newId) == Some(|doc.accounts|)
            && r.accounts[|doc.accounts|] == typed
            && Available(r) == Available(doc) + Signed(typed))
      && (mode.Editing? ==>
            var i := FindAccount(doc, mode.id).value;
            && FindAccount(r, mode.id) == Some(i)
            && r.accounts[i] == typed
            && Available(r) == Available(doc) - Signed(doc.accounts[i]) + Signed(typed))
  {
    var r := SubmitItemForm(doc, AccountsSection, mode, form, now).doc;
    match mode
    case Adding(id) =>
      AddAccountEffect(doc, NewAccount(form.name, form.amount, form.due.checked), id, now);
    case Editing(id) =>
      var i := FindAccount(doc, id).value;
      var typed := Account(id, form.name, form.amount, form.due.checked);
      assert r.accounts == doc.accounts[i := typed];
      AccountsTotalUpdate(doc.accounts, i, typed);
      assert MapSeq(r.accounts, AccountId) == MapSeq(doc.accounts, AccountId);
  }
}

=== FILE: migration.dfy ===
/** Upgrading a cached document of an older shape when the app starts
    (`loadLocal`, app.js:41-72). */
module Migration {
  import opened Basics
  import opened Document

  /** The pattern `^\d{4}-\d{2}-\d{2}$` (ASCII digits, whole string). */
  predicate IsIsoDate(s: string)
  {
    && |s| == 10
    && IsDigit(s[0]) && IsDigit(s[1]) && IsDigit(s[2]) && IsDigit(s[3])
    && s[4] == '-'
    && IsDigit(s[5]) && IsDigit(s[6])
    && s[7] == '-'
    && IsDigit(s[8]) && IsDigit(s[9])
  }

  /** The pattern is anchored at both ends and wants exactly two digits for
      the month and the day; it does not check the calendar. */
  lemma IsoDateExamples()
    ensures IsIsoDate("2024-01-31") && IsIsoDate("2024-02-30")
    ensures !IsIsoDate("2024-1-31") && !IsIsoDate("2024/01/31")
    ensures !IsIsoDate("2024-01-31 ") && !IsIsoDate("") && !IsIsoDate("-")
  {
  }

  /** An untagged `YYYY-MM-DD` string becomes a tagged date; every other
      schedule, including a non-date string such as "-", is kept. */
  function MigrateDue(d: Due): (r: Due)
    ensures r == d || (d.Legacy? && r == Date(d.text))
    ensures r.Legacy? ==> !IsIsoDate(r.text)
    ensures d.Legacy? && !IsIsoDate(d.text) ==> r == d
  {
    match d
    case Legacy(s) => if IsIsoDate(s) then Date(s) else d
    case _ => d
  }

  /** The per-entry rewrite for the entries under key `key` of `items`. */
  function MigrateItem(key: string, it: Item): (r: Item)
    ensures r.id == it.id && r.name == it.name && r.amount == it.amount
    ensures r.spent == it.spent && r.enableSpending == it.enableSpending
    ensures it.neededAmount.Some? ==> r.neededAmount == it.neededAmount
    ensures key != AccountsKey ==> r.neededAmount == Some(it.neededAmount.GetOr(it.amount))
    ensures key == AccountsKey ==> r.neededAmount == it.neededAmount
    ensures r.due == MigrateDue(it.due)
  {
    var needed := if it.neededAmount.None? && key != AccountsKey then Some(it.amount) else it.neededAmount;
    it.(neededAmount := needed, due := MigrateDue(it.due))
  }

  /** Applying the per-entry rewrite to its own output changes nothing. */
  lemma MigrateItemIdempotent(key: string, it: Item)
    ensures MigrateItem(key, MigrateItem(key, it)) == MigrateItem(key, it)
  {
  }

  function MigrateSlot(key: string, slot: Slot): (r: Slot)
    ensures r.Items? <==> slot.Items?
    ensures slot.Action? ==> r == slot
    ensures slot.Items? ==> |r.list| == |slot.list|
    ensures slot.Items? ==> forall i :: 0 <= i < |slot.list| ==> r.list[i] == MigrateItem(key, slot.list[i])
  {
    match slot
    case Items(list) => Items(seq(|list|, i requires 0 <= i < |list| => MigrateItem(key, list[i])))
    case Action(_) => slot
  }

  lemma MigrateSlotIdempotent(key: string, slot: Slot)
    ensures MigrateSlot(key, MigrateSlot(key, slot)) == MigrateSlot(key, slot)
  {
    if slot.Items? {
      var once := MigrateSlot(key, slot);
      var twice := MigrateSlot(key, once);
      forall i | 0 <= i < |slot.list|
        ensures twice.list[i] == once.list[i]
      {
        MigrateItemIdempotent(key, slot.list[i]);
      }
      assert twice.list == once.list;
    }
  }

  /** The `<key>_lastAction` slots the loop adds: one for every key of `items`
      (whatever it holds, a last-action slot included) whose slot is absent. */
  function Defaulted(m: map<string, Slot>): set<string>
  {
    set k | k in m && k + LastActionSuffix !in m :: k + LastActionSuffix
  }

  /** The loop over `Object.keys(state.items)` (app.js:47-69). */
  function MigrateSlots(m: map<string, Slot>): (r: map<string, Slot>)
    ensures r.Keys == m.Keys + Defaulted(m)
    ensures forall k :: k in m ==> k + LastActionSuffix in r
    ensures forall k :: k in m ==> r[k] == MigrateSlot(k, m[k])
    ensures forall k :: k in r && k !in m ==> r[k] == Action(None)
  {
    map k | k in m.Keys + Defaulted(m) :: if k in m then MigrateSlot(k, m[k]) else Action(None)
  }

  /** A second pass leaves every slot the first pass produced as it was:
      the entry rewrite is idempotent. (The key set is not: see
      `MigrateSlotsAlwaysAddsKey`.) */
  lemma MigrateSlotsStable(m: map<string, Slot>)
    ensures MigrateSlots(m).Keys <= MigrateSlots(MigrateSlots(m)).Keys
    ensures forall k :: k in MigrateSlots(m) ==> MigrateSlots(MigrateSlots(m))[k] == MigrateSlots(m)[k]
  {
    var once := MigrateSlots(m);
    forall k | k in once
      ensures MigrateSlots(once)[k] == once[k]
    {
      if k in m {
        MigrateSlotIdempotent(k, m[k]);
      }
    }
  }

  /** A longest string of a non-empty finite set. */
  lemma {:induction false} LongestKey(keys: set<string>) returns (k: string)
    requires keys != {}
    ensures k in keys
    ensures forall j :: j in keys ==> |j| <= |k|
    decreases |keys|
  {
    var x :| x in keys;
    if keys == {x} {
      k := x;
    } else {
      var rest := LongestKey(keys - {x});
      k := if |x| <= |rest| then rest else x;
    }
  }

  /** Every pass over a non-empty `items` adds at least one key: the loop
      also visits the `_lastAction` keys themselves, so the longest key always
      gains a `..._lastAction` sibling. Load after load, the key set grows. */
  lemma MigrateSlotsAlwaysAddsKey(m: map<string, Slot>)
    requires m != map[]
    ensures m.Keys < MigrateSlots(m).Keys
  {
    assert m.Keys != {} by {
      var k :| k in m;
      assert k in m.Keys;
    }
    var k := LongestKey(m.Keys);
    var added := k + LastActionSuffix;
    assert |added| > |k|;
    assert added !in m;
    assert added in MigrateSlots(m);
  }

  function MigrateDoc(doc: Document): (r: Document)
    ensures r.accounts == doc.accounts && r.accountsLastAction == doc.accountsLastAction
    ensures r.lastUpdated == doc.lastUpdated && r.lastSpend == doc.lastSpend
    ensures r.items == MigrateSlots(doc.items)
  {
    doc.(items := MigrateSlots(doc.items))
  }

  /** Migration neither creates nor removes a bucket: it only rewrites the
      entries of arrays and adds `_lastAction` keys, so a document that
      cannot be rendered stays so. */
  lemma MigrationKeepsBuckets(doc: Document, b: Bucket)
    ensures HasBucket(MigrateDoc(doc), b) <==> HasBucket(doc, b)
  {
  }

  /** `loadLocal`: adopt the cached document when it parses, otherwise keep
      the in-memory one, then migrate whichever it is. `raw` is the cached
      text, `None` when nothing is cached. */
  function LoadLocal(current: Document, raw: Option<Json>): (r: Document)
    ensures (raw.Some? && raw.value.Valid?) ==> r == MigrateDoc(raw.value.doc)
    ensures !(raw.Some? && raw.value.Valid?) ==> r == MigrateDoc(current)
  {
    var base := match raw
      case Some(Valid(d)) => d
      case _ => current;
    MigrateDoc(base)
  }

  /** A loaded document renders exactly when the document it was loaded
      from does. */
  lemma LoadLocalKeepsRenders(current: Document, raw: Option<Json>)
    ensures Renders(LoadLocal(current, raw)) <==>
      Renders(if raw.Some? && raw.value.Valid? then raw.value.doc else current)
  {
    var d := if raw.Some? && raw.value.Valid? then raw.value.doc else current;
    MigrationKeepsBuckets(d, Budget);
    MigrationKeepsBuckets(d, Bills);
    MigrationKeepsBuckets(d, Goals);
  }

  /** Load, save, load again: accounts and every slot of the first load
      survive unchanged, because its entries are already in final form. */
  lemma LoadLocalAfterSaveLocal(cached: Document, other: Document)
    ensures var loaded := LoadLocal(other, Some(Serialize(cached)));
      var again := LoadLocal(other, Some(Serialize(loaded)));
      && again.accounts == loaded.accounts
      && loaded.items.Keys <= again.items.Keys
      && forall k :: k in loaded.items ==> again.items[k] == loaded.items[k]
  {
    MigrateSlotsStable(cached.items);
  }
}

=== FILE: mutations.dfy ===
/** The mutation API (app.js:341-425, 889-914): adding, editing and removing
    accounts and entries, recording a spend, and replacing an entry's balance
    while clearing its history. Each is a function from the document before
    to the document after; the clock reading (`new Date().toISOString()`) and
    the fresh id (`uid()`) are parameters. Persisting and syncing afterwards
    belong to the sync layer. */
module Mutations {
  import opened Basics
  import opened Document
  import opened Derive

  /** Replace entry `i` of bucket `b`. */
  function SetItem(doc: Document, b: Bucket, i: nat, it: Item): (r: Document)
    requires i < |ItemsOf(doc, b)|
    ensures HasBucket(r, b) && ItemsOf(r, b) == ItemsOf(doc, b)[i := it]
    ensures r.accounts == doc.accounts && r.accountsLastAction == doc.accountsLastAction
    ensures r.lastUpdated == doc.lastUpdated && r.lastSpend == doc.lastSpend
    ensures SameSlotsExcept(doc, r, {Key(b)})
  {
    WithItems(doc, b, ItemsOf(doc, b)[i := it])
  }

  // ---------------------------------------------------------------------------
  // addItem

  /** What the add form hands to `addItem`: for accounts the `due` argument
      is the asset flag, for entries the schedule. */
  datatype Draft =
    | NewAccount(name: string, amount: int, isPositive: bool)
    | NewItem(bucket: Bucket, name: string, amount: int, neededAmount: Option<int>, due: Due, enableSpending: Option<bool>)

  /** The id `uid()` produced is not already used in the target collection. */
  predicate FreshFor(doc: Document, draft: Draft, id: string)
  {
    match draft
    case NewAccount(_, _, _) => FindAccount(doc, id).None?
    case NewItem(b, _, _, _, _, _) => forall i :: 0 <= i < |ItemsOf(doc, b)| ==> ItemsOf(doc, b)[i].id != id
  }

  /** The new entry: target defaults to the amount, spending off unless
      chosen, empty history (app.js:354-356). */
  function NewEntry(draft: Draft, id: string): (r: Item)
    requires draft.NewItem?
    ensures r.id == id && r.name == draft.name && r.amount == draft.amount && r.due == draft.due
    ensures r.spent == []
    ensures draft.neededAmount.Some? ==> r.neededAmount == draft.neededAmount
    ensures draft.neededAmount.None? ==> r.neededAmount == Some(draft.amount)
    ensures draft.enableSpending.Some? ==> r.enableSpending == draft.enableSpending
    ensures draft.enableSpending.None? ==> r.enableSpending == Some(false)
  {
    Item(id, draft.name, draft.amount, Some(draft.neededAmount.GetOr(draft.amount)), draft.due, [],
         Some(draft.enableSpending.GetOr(false)))
  }

  /** `addItem`: append the new account or entry and mark the section's last
      action as an add. Nothing else changes. */
  function AddItem(doc: Document, draft: Draft, id: string, now: string): (r: Document)
    requires FreshFor(doc, draft, id)
    ensures draft.NewAccount? ==>
      && r.accounts == doc.accounts + [Account(id, draft.name, draft.amount, draft.isPositive)]
      && r.accountsLastAction == Some(LastAction(Add, draft.name, None, now))
      && r.items == doc.items
    ensures draft.NewItem? ==>
      && r.accounts == doc.accounts
      && r.accountsLastAction == doc.accountsLastAction
      && HasBucket(r, draft.bucket)
      && ItemsOf(r, draft.bucket) == ItemsOf(doc, draft.bucket) + [NewEntry(draft, id)]
      && LastActionOf(r, draft.bucket) == Some(LastAction(Add, draft.name, None, now))
      && SameSlotsExcept(doc, r, {Key(draft.bucket), LastActionKey(draft.bucket)})
    ensures r.lastUpdated == doc.lastUpdated && r.lastSpend == doc.lastSpend
  {
    match draft
    case NewAccount(name, amount, isPositive) =>
      doc.(accounts := doc.accounts + [Account(id, name, amount, isPositive)],
           accountsLastAction := Some(LastAction(Add, name, None, now)))
    case NewItem(b, name, _, _, _, _) =>
      KeysDistinct(b, b);
      var d1 := WithItems(doc, b, ItemsOf(doc, b) + [NewEntry(draft, id)]);
      WithLastAction(d1, b, LastAction(Add, name, None, now))
  }

  /** The added account is the one its id now finds, and the available
      figure moves by its signed amount: an asset adds to it, a liability
      takes from it. */
  lemma AddAccountEffect(doc: Document, draft: Draft, id: string, now: string)
    requires draft.NewAccount? && FreshFor(doc, draft, id)
    ensures var r := AddItem(doc, draft, id, now);
      && FindAccount(r, id) == Some(|doc.accounts|)
      && Available(r) == Available(doc) + (if draft.isPositive then draft.amount else -draft.amount)
  {
    var r := AddItem(doc, draft, id, now);
    var a := Account(id, draft.name, draft.amount, draft.isPositive);
    AccountsTotalAppend(doc.accounts, a);
    assert r.items == doc.items;
    FindAccountAppended(doc.accounts, a);
  }

  lemma AccountsTotalAppend(accounts: seq<Account>, a: Account)
    ensures AccountsTotal(accounts + [a]) == AccountsTotal(accounts) + Signed(a)
  {
    assert SignedAmounts(accounts + [a]) == SignedAmounts(accounts) + [Signed(a)];
    SumAppend(SignedAmounts(accounts), [Signed(a)]);
    SumSingleton(Signed(a));
  }

  /** An id absent from the accounts finds the account appended with it. */
  lemma FindAccountAppended(accounts: seq<Account>, a: Account)
    requires forall i :: 0 <= i < |accounts| ==> accounts[i].id != a.id
    ensures FirstIndex(MapSeq(accounts + [a], AccountId), a.id) == Some(|accounts|)
  {
    assert MapSeq(accounts + [a], AccountId)[|accounts|] == a.id;
  }

  /** A change confined to bucket `b` and its last-action slot leaves every
      other bucket as it was. */
  lemma OtherBucketsUnchanged(doc: Document, r: Document, b: Bucket, c: Bucket)
    requires b != c
    requires SameSlotsExcept(doc, r, {Key(b), LastActionKey(b)})
    ensures ItemsOf(r, c) == ItemsOf(doc, c)
  {
    KeysDistinct(c, b);
  }

  /** Under such a change, the available figure moves by the change in that
      bucket's total. */
  lemma AvailableAfterBucketChange(doc: Document, r: Document, b: Bucket)
    requires r.accounts == doc.accounts
    requires SameSlotsExcept(doc, r, {Key(b), LastActionKey(b)})
    ensures Available(r) == Available(doc) + BucketTotal(doc, b) - BucketTotal(r, b)
  {
    forall c: Bucket | c != b
      ensures ItemsOf(r, c) == ItemsOf(doc, c)
    {
      OtherBucketsUnchanged(doc, r, b, c);
    }
  }

  /** The added entry is the one its id now finds, and the available figure
      drops by the part of its balance that is positive. */
  lemma AddEntryEffect(doc: Document, draft: Draft, id: string, now: string)
    requires draft.NewItem? && FreshFor(doc, draft, id)
    ensures var r := AddItem(doc, draft, id, now);
      && FindItem(r, draft.bucket, id) == Some(|ItemsOf(doc, draft.bucket)|)
      && Available(r) == Available(doc) - (if draft.amount > 0 then draft.amount else 0)
  {
    var r := AddItem(doc, draft, id, now);
    var b := draft.bucket;
    var list := ItemsOf(doc, b);
    SectionTotalAppend(list, NewEntry(draft, id));
    AvailableAfterBucketChange(doc, r, b);
    FindAppended(list, NewEntry(draft, id));
  }

  /** An id absent from a list finds the entry appended with it. */
  lemma FindAppended(list: seq<Item>, x: Item)
    requires forall i :: 0 <= i < |list| ==> list[i].id != x.id
    ensures FirstIndex(MapSeq(list + [x], ItemId), x.id) == Some(|list|)
  {
    assert MapSeq(list + [x], ItemId)[|list|] == x.id;
  }

  // ---------------------------------------------------------------------------
  // updateItem

  /** What the edit form hands to `updateItem`. For an entry, an absent
      `neededAmount` or `enableSpending` keeps the stored value. */
  datatype Edit =
    | AccountEdit(id: string, name: string, amount: int, isPositive: bool)
    | ItemEdit(bucket: Bucket, id: string, name: string, amount: int, due: Due,
               neededAmount: Option<int>, enableSpending: Option<bool>)

  /** `updateItem`: overwrite the edited fields of the first entity with the
      id and mark an edit; an unknown id changes nothing. The spend history
      is never touched. */
  function UpdateItem(doc: Document, e: Edit, now: string): (r: Document)
    ensures e.AccountEdit? && FindAccount(doc, e.id).None? ==> r == doc
    ensures e.AccountEdit? && FindAccount(doc, e.id).Some? ==>
      var i := FindAccount(doc, e.id).value;
      && r.accounts == doc.accounts[i := Account(e.id, e.name, e.amount, e.isPositive)]
      && r.accountsLastAction == Some(LastAction(Edit, e.name, None, now))
      && r.items == doc.items
      && r.lastUpdated == doc.lastUpdated && r.lastSpend == doc.lastSpend
    ensures e.ItemEdit? && FindItem(doc, e.bucket, e.id).None? ==> r == doc
    ensures e.ItemEdit? && FindItem(doc, e.bucket, e.id).Some? ==>
      var i := FindItem(doc, e.bucket, e.id).value;
      var it := ItemsOf(doc, e.bucket)[i];
      && HasBucket(r, e.bucket)
      && |ItemsOf(r, e.bucket)| == |ItemsOf(doc, e.bucket)|
      && (forall j :: 0 <= j < |ItemsOf(doc, e.bucket)| && j != i ==> ItemsOf(r, e.bucket)[j] == ItemsOf(doc, e.bucket)[j])
      && ItemsOf(r, e.bucket)[i].id == it.id
      && ItemsOf(r, e.bucket)[i].spent == it.spent
      && ItemsOf(r, e.bucket)[i].name == e.name
      && ItemsOf(r, e.bucket)[i].amount == e.amount
      && ItemsOf(r, e.bucket)[i].due == e.due
      && ItemsOf(r, e.bucket)[i].neededAmount == (if e.neededAmount.Some? then e.neededAmount else it.neededAmount)
      && ItemsOf(r, e.bucket)[i].enableSpending == (if e.enableSpending.Some? then e.enableSpending else it.enableSpending)
      && LastActionOf(r, e.bucket) == Some(LastAction(Edit, e.name, None, now))
      && r.accounts == doc.accounts && r.accountsLastAction == doc.accountsLastAction
      && r.lastUpdated == doc.lastUpdated && r.lastSpend == doc.lastSpend
      && SameSlotsExcept(doc, r, {Key(e.bucket), LastActionKey(e.bucket)})
  {
    match e
    case AccountEdit(id, name, amount, isPositive) =>
      if FindAccount(doc, id).None? then doc
      else
        var i := FindAccount(doc, id).value;
        doc.(accounts := doc.accounts[i := Account(id, name, amount, isPositive)],
             accountsLastAction := Some(LastAction(Edit, name, None, now)))
    case ItemEdit(b, id, name, amount, due, neededAmount, enableSpending) =>
      match FindItem(doc, b, id)
      case None => doc
      case Some(i) =>
        KeysDistinct(b, b);
        var it := ItemsOf(doc, b)[i];
        var edited := it.(name := name, amount := amount, due := due,
                          neededAmount := if neededAmount.Some? then neededAmount else it.neededAmount,
                          enableSpending := if enableSpending.Some? then enableSpending else it.enableSpending);
        WithLastAction(SetItem(doc, b, i, edited), b, LastAction(Edit, name, None, now))
  }

  // ---------------------------------------------------------------------------
  // removeItem

  /** `removeItem`: drop every entity with the id, keeping the others in
      order. It does not touch the last-action slots. */
  function RemoveItem(doc: Document, t: Target): (r: Document)
    ensures t.AccountRef? ==>
      && (forall a :: a in r.accounts ==> a in doc.accounts && a.id != t.id)
      && (forall a :: a in doc.accounts && a.id != t.id ==> a in r.accounts)
      && multiset(r.accounts) <= multiset(doc.accounts)
      && (forall a: Account :: a.id != t.id ==> multiset(r.accounts)[a] == multiset(doc.accounts)[a])
      && r.items == doc.items
    ensures t.ItemRef? && !HasBucket(doc, t.bucket) ==> r == doc
    ensures t.ItemRef? && HasBucket(doc, t.bucket) ==>
      && HasBucket(r, t.bucket)
      && (forall x :: x in ItemsOf(r, t.bucket) ==> x in ItemsOf(doc, t.bucket) && x.id != t.id)
      && (forall x :: x in ItemsOf(doc, t.bucket) && x.id != t.id ==> x in ItemsOf(r, t.bucket))
      && multiset(ItemsOf(r, t.bucket)) <= multiset(ItemsOf(doc, t.bucket))
      && (forall x: Item :: x.id != t.id ==> multiset(ItemsOf(r, t.bucket))[x] == multiset(ItemsOf(doc, t.bucket))[x])
      && r.accounts == doc.accounts
      && SameSlotsExcept(doc, r, {Key(t.bucket)})
    ensures r.accountsLastAction == doc.accountsLastAction
    ensures r.lastUpdated == doc.lastUpdated && r.lastSpend == doc.lastSpend
  {
    match t
    case AccountRef(id) =>
      doc.(accounts := Filter(doc.accounts, (a: Account) => a.id != id))
    case ItemRef(b, id) =>
      if HasBucket(doc, b) then WithItems(doc, b, Filter(ItemsOf(doc, b), (x: Item) => x.id != id))
      else doc
  }

  /** Order: removing from a list with one more entity at the end gives the
      shorter list's result, followed by that entity when it is kept. With
      the empty list as the base, this fixes the result entity by entity. */
  lemma RemoveAccountAppend(doc: Document, a: Account, id: string)
    ensures RemoveItem(doc.(accounts := doc.accounts + [a]), AccountRef(id)).accounts
         == RemoveItem(doc, AccountRef(id)).accounts + (if a.id != id then [a] else [])
  {
    FilterAppend(doc.accounts, [a], (x: Account) => x.id != id);
  }

  lemma RemoveEntryAppend(doc: Document, b: Bucket, x: Item, id: string)
    requires HasBucket(doc, b)
    ensures var longer := WithItems(doc, b, ItemsOf(doc, b) + [x]);
      ItemsOf(RemoveItem(longer, ItemRef(b, id)), b)
        == ItemsOf(RemoveItem(doc, ItemRef(b, id)), b) + (if x.id != id then [x] else [])
  {
    FilterAppend(ItemsOf(doc, b), [x], (y: Item) => y.id != id);
  }

  /** Removing an id that is not there changes nothing. */
  lemma RemoveUnknownIsNoOp(doc: Document, t: Target)
    requires t.AccountRef? ==> FindAccount(doc, t.id).None?
    requires t.ItemRef? ==> FindItem(doc, t.bucket, t.id).None?
    ensures RemoveItem(doc, t) == doc
  {
    if t.ItemRef? && HasBucket(doc, t.bucket) {
      var list := ItemsOf(doc, t.bucket);
      assert forall x :: x in list ==> x.id != t.id;
      assert doc.items[Key(t.bucket) := Items(list)] == doc.items;
    }
  }

  // ---------------------------------------------------------------------------
  // addSpending

  /** `addSpending`: append one spend to the entry's history, record the
      spend marker and mark the bucket's last action as a spend under the
      entry's own name. The balance is untouched; an unknown id changes
      nothing. No validation happens here. */
  function AddSpending(doc: Document, b: Bucket, itemId: string, name: string, amount: int, now: string): (r: Document)
    ensures FindItem(doc, b, itemId).None? ==> r == doc
    ensures FindItem(doc, b, itemId).Some? ==>
      var i := FindItem(doc, b, itemId).value;
      var it := ItemsOf(doc, b)[i];
      && HasBucket(r, b)
      && |ItemsOf(r, b)| == |ItemsOf(doc, b)|
      && (forall j :: 0 <= j < |ItemsOf(doc, b)| && j != i ==> ItemsOf(r, b)[j] == ItemsOf(doc, b)[j])
      && ItemsOf(r, b)[i] == it.(spent := it.spent + [Spend(name, amount, now)])
      && LastActionOf(r, b) == Some(LastAction(SpendAction, it.name, Some(amount), now))
      && r.lastUpdated == Some(now)
      && r.lastSpend == Some(SpendNote(Key(b), itemId, name, amount, now, it.name))
      && r.accounts == doc.accounts && r.accountsLastAction == doc.accountsLastAction
      && SameSlotsExcept(doc, r, {Key(b), LastActionKey(b)})
  {
    match FindItem(doc, b, itemId)
    case None => doc
    case Some(i) =>
      KeysDistinct(b, b);
      var it := ItemsOf(doc, b)[i];
      var d1 := SetItem(doc, b, i, it.(spent := it.spent + [Spend(name, amount, now)]));
      var d2 := d1.(lastUpdated := Some(now),
                    lastSpend := Some(SpendNote(Key(b), itemId, name, amount, now, it.name)));
      WithLastAction(d2, b, LastAction(SpendAction, it.name, Some(amount), now))
  }

  /** A recorded spend lowers the entry's remaining balance by its amount;
      the entry stays the one its id finds. */
  lemma AddSpendingLowersRemaining(doc: Document, b: Bucket, itemId: string, name: string, amount: int, now: string)
    requires FindItem(doc, b, itemId).Some?
    ensures var i := FindItem(doc, b, itemId).value;
      var r := AddSpending(doc, b, itemId, name, amount, now);
      && FindItem(r, b, itemId) == Some(i)
      && Remaining(ItemsOf(r, b)[i]) == Remaining(ItemsOf(doc, b)[i]) - amount
  {
    var i := FindItem(doc, b, itemId).value;
    var r := AddSpending(doc, b, itemId, name, amount, now);
    RemainingAfterSpend(ItemsOf(doc, b)[i], Spend(name, amount, now));
    assert MapSeq(ItemsOf(r, b), ItemId) == MapSeq(ItemsOf(doc, b), ItemId);
  }

  /** A spend the entry still covers raises the available figure by its
      amount: the entry's remaining balance, all of it counted in its
      bucket's total, goes down by that much. */
  lemma AddSpendingAvailable(doc: Document, b: Bucket, itemId: string, name: string, amount: int, now: string)
    requires FindItem(doc, b, itemId).Some?
    requires 0 <= amount <= Remaining(ItemsOf(doc, b)[FindItem(doc, b, itemId).value])
    ensures Available(AddSpending(doc, b, itemId, name, amount, now)) == Available(doc) + amount
  {
    var r := AddSpending(doc, b, itemId, name, amount, now);
    var i := FindItem(doc, b, itemId).value;
    AddSpendingLowersRemaining(doc, b, itemId, name, amount, now);
    SectionTotalUpdate(ItemsOf(doc, b), i, ItemsOf(r, b)[i]);
    AvailableAfterBucketChange(doc, r, b);
  }

  // ---------------------------------------------------------------------------
  // updateItemAmountAndResetSpent

  /** `updateItemAmountAndResetSpent`: set the balance directly; for an entry
      also clear the spend history, so that its remaining balance is exactly
      the new amount. The last action becomes 'edit amount'. An unknown id
      changes nothing. */
  function UpdateItemAmountAndResetSpent(doc: Document, t: Target, newAmount: int, now: string): (r: Document)
    ensures t.AccountRef? && FindAccount(doc, t.id).None? ==> r == doc
    ensures t.AccountRef? && FindAccount(doc, t.id).Some? ==>
      var i := FindAccount(doc, t.id).value;
      && r.accounts == doc.accounts[i := doc.accounts[i].(amount := newAmount)]
      && r.accountsLastAction == Some(LastAction(EditAmount, doc.accounts[i].name, None, now))
      && r.items == doc.items
    ensures t.ItemRef? && FindItem(doc, t.bucket, t.id).None? ==> r == doc
    ensures t.ItemRef? && FindItem(doc, t.bucket, t.id).Some? ==>
      var i := FindItem(doc, t.bucket, t.id).value;
      var it := ItemsOf(doc, t.bucket)[i];
      && HasBucket(r, t.bucket)
      && ItemsOf(r, t.bucket) == ItemsOf(doc, t.bucket)[i := it.(amount := newAmount, spent := [])]
      && ItemsOf(r, t.bucket)[i].spent == []
      && Remaining(ItemsOf(r, t.bucket)[i]) == newAmount
      && LastActionOf(r, t.bucket) == Some(LastAction(EditAmount, it.name, None, now))
      && r.accounts == doc.accounts && r.accountsLastAction == doc.accountsLastAction
      && SameSlotsExcept(doc, r, {Key(t.bucket), LastActionKey(t.bucket)})
    ensures r.lastUpdated == doc.lastUpdated && r.lastSpend == doc.lastSpend
  {
    match t
    case AccountRef(id) =>
      if FindAccount(doc, id).None? then doc
      else
        var i := FindAccount(doc, id).value;
        doc.(accounts := doc.accounts[i := doc.accounts[i].(amount := newAmount)],
             accountsLastAction := Some(LastAction(EditAmount, doc.accounts[i].name, None, now)))
    case ItemRef(b, id) =>
      match FindItem(doc, b, id)
      case None => doc
      case Some(i) =>
        KeysDistinct(b, b);
        var it := ItemsOf(doc, b)[i];
        WithLastAction(SetItem(doc, b, i, it.(amount := newAmount, spent := [])), b,
                       LastAction(EditAmount, it.name, None, now))
  }
}

=== FILE: sync.dfy ===
/** Persistence decisions: saving the document to a GitHub gist and loading
    it back (app.js:708-799), the silent autosave with its in-flight flag
    (app.js:742-753), the throttled auto-refresh (app.js:1164-1181), start-up
    (app.js:531-532, 1204-1209) and importing a backup file (app.js:663-702).
    The network is an oracle: a request is returned to the caller and its
    reply is passed back in, so each exchange is a start step and a finish
    step, and an auto-refresh may run in between. */
module Sync {
  import opened Basics
  import opened Document
  import opened Migration

  /** The text and colour of the status line. */
  datatype Status = Status(message: string, isError: bool)

  const MissingToken: Status := Status("Missing GitHub token", true)
  const MissingId: Status := Status("Missing Gist ID", true)
  const Saving: Status := Status("Saving to gist...", false)
  const SaveNetworkFailure: Status := Status("Network error saving gist", true)
  const Loading: Status := Status("Loading from gist...", false)
  const NoFiles: Status := Status("No files found in gist", true)
  const InvalidJson: Status := Status("Invalid JSON in gist file", true)
  const Loaded: Status := Status("Loaded data from gist", false)
  const LoadNetworkFailure: Status := Status("Network error loading gist", true)

  function Saved(id: string): Status
  {
    Status("Saved to gist: " + id, false)
  }

  function SaveFailed(message: string): Status
  {
    Status("Gist save failed: " + message, true)
  }

  function LoadFailed(message: string): Status
  {
    Status("Gist load failed: " + message, true)
  }

  /** The client-side state sync touches. Credentials in local storage are
      strings, `""` standing for an absent key (every use only tests
      truthiness); a settings field is `None` when the page has no such
      input and otherwise holds its trimmed value. */
  datatype Session = Session(
    doc: Document,
    cache: Option<Json>,        // the local copy under `budget_data_v1`
    storedId: string,           // `budget_gist_id`
    storedToken: string,        // `budget_gist_token`
    idField: Option<string>,
    tokenField: Option<string>,
    saving: bool,               // an autosave is in flight
    lastRefresh: int,           // ms timestamp of the last auto-refresh
    status: Option<Status>)

  /** The one file the app writes into a gist. */
  const DataFileName: string := "budget-data.json"

  datatype GistFile = GistFile(name: string, content: Json)

  function DataFile(doc: Document): GistFile
  {
    GistFile(DataFileName, Serialize(doc))
  }

  /** A write to the gist API: POST a new gist, or PATCH an existing one. */
  datatype SaveRequest =
    | Create(token: string, file: GistFile)
    | Replace(token: string, id: string, file: GistFile)

  datatype SaveReply = SaveOk(id: string) | SaveRejected(message: string) | SaveNetworkError

  /** A read of one gist. */
  datatype FetchRequest = FetchRequest(token: string, id: string)

  datatype LoadReply = Fetched(files: seq<GistFile>) | LoadRejected(message: string) | LoadNetworkError

  datatype SaveStarted = SaveStarted(session: Session, pending: Option<SaveRequest>)
  datatype LoadStarted = LoadStarted(session: Session, pending: Option<FetchRequest>)

  /** Shows a status unless the caller asked for silence. */
  function Report(s: Session, silent: bool, st: Status): (r: Session)
    ensures silent ==> r == s
    ensures !silent ==> r == s.(status := Some(st))
  {
    if silent then s else s.(status := Some(st))
  }

  // ---------------------------------------------------------------------------
  // Credentials

  /** Manual save's rule: the field's value when the input exists, even if
      empty; local storage only when there is no input. */
  function FieldOr(field: Option<string>, stored: string): (r: string)
    ensures r == "" <==> field == Some("") || (field.None? && stored == "")
  {
    match field
    case Some(v) => v
    case None => stored
  }

  /** Autosave's and load's rule: a non-empty field value, else local storage. */
  function FieldElse(field: Option<string>, stored: string): (r: string)
    ensures r == "" <==> (field.None? || field.value == "") && stored == ""
  {
    if field.Some? && field.value != "" then field.value else stored
  }

  /** The two rules give different credentials exactly when the input is
      there but empty while local storage holds a value: manual save then
      sees nothing, autosave and load use the stored one. */
  lemma CredentialRulesDiffer(field: Option<string>, stored: string)
    ensures FieldOr(field, stored) != FieldElse(field, stored) <==> field == Some("") && stored != ""
    ensures FieldOr(field, stored) != "" ==> FieldElse(field, stored) == FieldOr(field, stored)
  {
  }

  /** Loading copies a stored credential into an empty input. */
  function Backfill(field: Option<string>, value: string): (r: Option<string>)
    ensures r.None? <==> field.None?
    ensures r.Some? && field.value != "" ==> r == field
    ensures r.Some? && field.value == "" ==> r == Some(value)
  {
    if field.Some? && field.value == "" && value != "" then Some(value) else field
  }

  // ---------------------------------------------------------------------------
  // Save

  function SaveToken(s: Session): string
  {
    FieldOr(s.tokenField, s.storedToken)
  }

  function SaveId(s: Session): string
  {
    FieldOr(s.idField, s.storedId)
  }

  /** Everything `saveToGist` does before awaiting the reply. */
  function SaveStart(s: Session, createNew: bool, silent: bool): (r: SaveStarted)
    ensures r.session == s.(status := r.session.status)
    ensures silent ==> r.session.status == s.status
    ensures r.pending.Some? <==> SaveToken(s) != "" && (createNew || SaveId(s) != "")
    ensures r.pending.Some? ==> r.pending.value.token == SaveToken(s) && r.pending.value.file == DataFile(s.doc)
    ensures r.pending.Some? && r.pending.value.Replace? ==> r.pending.value.id == SaveId(s) != ""
    ensures !createNew && r.pending.Some? ==> r.pending.value.Replace?
    ensures !silent && SaveToken(s) == "" ==> r.session.status == Some(MissingToken)
    ensures !silent && SaveToken(s) != "" && SaveId(s) == "" && !createNew ==> r.session.status == Some(MissingId)
    ensures !silent && r.pending.Some? ==> r.session.status == Some(Saving)
  {
    var token := SaveToken(s);
    var id := SaveId(s);
    if token == "" then SaveStarted(Report(s, silent, MissingToken), None)
    else if id == "" && !createNew then SaveStarted(Report(s, silent, MissingId), None)
    else
      var file := DataFile(s.doc);
      var req := if createNew || id == "" then Create(token, file) else Replace(token, id, file);
      SaveStarted(Report(s, silent, Saving), Some(req))
  }

  /** Everything `saveToGist` does with the reply. */
  function SaveFinish(s: Session, req: SaveRequest, silent: bool, reply: SaveReply): (r: Session)
    ensures r.doc == s.doc && r.cache == s.cache
    ensures r.saving == s.saving && r.lastRefresh == s.lastRefresh && r.tokenField == s.tokenField
    ensures silent ==> r.status == s.status
    ensures reply.SaveOk? ==> r.storedId == reply.id && r.storedToken == req.token
    ensures reply.SaveOk? ==> r.idField == (if s.idField.Some? then Some(reply.id) else None)
    ensures !reply.SaveOk? ==> r == s.(status := r.status)
    ensures !silent ==> r.status == Some(match reply
      case SaveOk(id) => Saved(id)
      case SaveRejected(m) => SaveFailed(m)
      case SaveNetworkError => SaveNetworkFailure)
  {
    match reply
    case SaveOk(id) =>
      var field := if s.idField.Some? then Some(id) else None;
      Report(s.(storedId := id, storedToken := req.token, idField := field), silent, Saved(id))
    case SaveRejected(m) => Report(s, silent, SaveFailed(m))
    case SaveNetworkError => Report(s, silent, SaveNetworkFailure)
  }

  // ---------------------------------------------------------------------------
  // Autosave

  /** `autosaveToGist` up to the request: skipped without a word when either
      credential is missing, otherwise the in-flight flag is raised and a
      silent save starts. */
  function AutosaveStart(s: Session): (r: Option<SaveStarted>)
    ensures r.None? <==> FieldElse(s.tokenField, s.storedToken) == "" || FieldElse(s.idField, s.storedId) == ""
    ensures r.Some? ==> r.value.session == s.(saving := true)
    ensures r.Some? && r.value.pending.Some? ==> r.value.pending.value.Replace?
  {
    if FieldElse(s.tokenField, s.storedToken) == "" || FieldElse(s.idField, s.storedId) == "" then None
    else Some(SaveStart(s.(saving := true), false, true))
  }

  /** The `finally` of `autosaveToGist`: the reply is applied silently and
      the flag is lowered. */
  function AutosaveFinish(s: Session, pending: Option<SaveRequest>, reply: SaveReply): (r: Session)
    ensures !r.saving
    ensures r.doc == s.doc && r.status == s.status && r.lastRefresh == s.lastRefresh
    ensures pending.Some? && reply.SaveOk? ==> r.storedId == reply.id && r.storedToken == pending.value.token
    ensures pending.None? || !reply.SaveOk? ==> r == s.(saving := false)
  {
    var after := if pending.Some? then SaveFinish(s, pending.value, true, reply) else s;
    after.(saving := false)
  }

  /** The two credential rules differ: with an input present but empty and
      both credentials in local storage, autosave raises its flag, yet the
      save it starts sends nothing. */
  lemma AutosaveWithEmptyTokenFieldSendsNothing(s: Session)
    requires s.tokenField == Some("") && s.storedToken != "" && s.storedId != ""
    ensures AutosaveStart(s).Some?
    ensures AutosaveStart(s).value.session.saving
    ensures AutosaveStart(s).value.pending.None?
  {
    assert SaveToken(s.(saving := true)) == "";
  }

  // ---------------------------------------------------------------------------
  // Load

  /** The first file named `budget-data.json`, else the first file. */
  function ChooseFile(files: seq<GistFile>): (r: Option<GistFile>)
    ensures r.None? <==> files == []
    ensures r.Some? ==> r.value in files
    ensures (exists f :: f in files && f.name == DataFileName) ==> r.Some? && r.value.name == DataFileName
    ensures (forall f :: f in files ==> f.name != DataFileName) && files != [] ==> r == Some(files[0])
  {
    var names := seq(|files|, i requires 0 <= i < |files| => files[i].name);
    match FirstIndex(names, DataFileName)
    case Some(i) => Some(files[i])
    case None =>
      forall f | f in files
        ensures f.name != DataFileName
      {
        var j :| 0 <= j < |files| && files[j] == f;
        assert names[j] == f.name;
      }
      if files == [] then None else Some(files[0])
  }

  function LoadToken(s: Session): string
  {
    FieldElse(s.tokenField, s.storedToken)
  }

  function LoadId(s: Session): string
  {
    FieldElse(s.idField, s.storedId)
  }

  /** Everything `loadFromGist` does before awaiting the reply. The id is
      checked before the token. */
  function LoadStart(s: Session, silent: bool): (r: LoadStarted)
    ensures r.session.doc == s.doc && r.session.cache == s.cache
    ensures r.session.storedId == s.storedId && r.session.storedToken == s.storedToken
    ensures r.session.saving == s.saving && r.session.lastRefresh == s.lastRefresh
    ensures r.session.idField == Backfill(s.idField, LoadId(s))
    ensures r.session.tokenField == Backfill(s.tokenField, LoadToken(s))
    ensures silent ==> r.session.status == s.status
    ensures r.pending.Some? <==> LoadId(s) != "" && LoadToken(s) != ""
    ensures r.pending.Some? ==> r.pending.value == FetchRequest(LoadToken(s), LoadId(s))
    ensures !silent && LoadId(s) == "" ==> r.session.status == Some(MissingId)
    ensures !silent && LoadId(s) != "" && LoadToken(s) == "" ==> r.session.status == Some(MissingToken)
    ensures !silent && r.pending.Some? ==> r.session.status == Some(Loading)
  {
    var token := LoadToken(s);
    var id := LoadId(s);
    var s1 := s.(tokenField := Backfill(s.tokenField, token), idField := Backfill(s.idField, id));
    if id == "" then LoadStarted(Report(s1, silent, MissingId), None)
    else if token == "" then LoadStarted(Report(s1, silent, MissingToken), None)
    else LoadStarted(Report(s1, silent, Loading), Some(FetchRequest(token, id)))
  }

  /** What a reply to a fetch yields: the parsed document, or the status
      explaining why there is none. */
  datatype Arrival = LoadedDoc(doc: Document) | LoadError(status: Status)

  function Received(reply: LoadReply): (r: Arrival)
    ensures r.LoadedDoc? <==> reply.Fetched? && ChooseFile(reply.files).Some? && ChooseFile(reply.files).value.content.Valid?
    ensures r.LoadedDoc? ==> Parse(ChooseFile(reply.files).value.content) == Some(r.doc)
    ensures reply.LoadRejected? ==> r == LoadError(LoadFailed(reply.message))
    ensures reply.LoadNetworkError? ==> r == LoadError(LoadNetworkFailure)
    ensures reply.Fetched? && reply.files == [] ==> r == LoadError(NoFiles)
    ensures reply.Fetched? && reply.files != [] && ChooseFile(reply.files).value.content.Malformed? ==>
      r == LoadError(InvalidJson)
  {
    match reply
    case LoadRejected(m) => LoadError(LoadFailed(m))
    case LoadNetworkError => LoadError(LoadNetworkFailure)
    case Fetched(files) =>
      var f := ChooseFile(files);
      if f.None? then LoadError(NoFiles)
      else if Parse(f.value.content).None? then LoadError(InvalidJson)
      else LoadedDoc(Parse(f.value.content).value)
  }

  /** Everything `loadFromGist` does with the reply. A parsed document
      replaces the state whole, without migration, and is cached; the
      outcome is shown even on a silent load. When that document lacks a
      bucket, the render that follows throws into the JSON error handler:
      the state and the cache are already replaced, but the credentials are
      not stored and the status reads as invalid JSON. */
  function LoadFinish(s: Session, req: FetchRequest, reply: LoadReply): (r: Session)
    ensures r.saving == s.saving && r.lastRefresh == s.lastRefresh
    ensures r.idField == s.idField && r.tokenField == s.tokenField
    ensures r.status.Some?
    ensures Received(reply).LoadedDoc? ==>
      && r.doc == Received(reply).doc
      && r.cache == Some(Serialize(r.doc))
    ensures Received(reply).LoadedDoc? && Renders(r.doc) ==>
      && r.storedId == req.id && r.storedToken == req.token
      && r.status == Some(Loaded)
    ensures Received(reply).LoadedDoc? && !Renders(r.doc) ==>
      && r.storedId == s.storedId && r.storedToken == s.storedToken
      && r.status == Some(InvalidJson)
    ensures Received(reply).LoadError? ==> r == s.(status := Some(Received(reply).status)) && r.status.value.isError
  {
    match Received(reply)
    case LoadedDoc(d) =>
      if Renders(d) then
        s.(doc := d, cache := Some(Serialize(d)), storedId := req.id, storedToken := req.token, status := Some(Loaded))
      else s.(doc := d, cache := Some(Serialize(d)), status := Some(InvalidJson))
    case LoadError(st) => s.(status := Some(st))
  }

  /** Whatever arrives when the gist holds text that does not parse, the
      in-memory document and the local copy are untouched. */
  lemma MalformedGistKeepsDocument(s: Session, req: FetchRequest, files: seq<GistFile>)
    requires ChooseFile(files).Some? && ChooseFile(files).value.content.Malformed?
    ensures LoadFinish(s, req, Fetched(files)).doc == s.doc
    ensures LoadFinish(s, req, Fetched(files)).cache == s.cache
    ensures LoadFinish(s, req, Fetched(files)).status == Some(InvalidJson)
  {
    assert Received(Fetched(files)) == LoadError(InvalidJson);
  }

  /** A successful save followed by a load that receives the saved file
      fetches the gist the save reported and restores the saved document. */
  lemma SaveThenLoadRestores(s: Session, createNew: bool, silent: bool, id: string, loadSilent: bool)
    requires SaveStart(s, createNew, silent).pending.Some?
    requires id != ""
    ensures var st := SaveStart(s, createNew, silent);
      var req := st.pending.value;
      var saved := SaveFinish(st.session, req, silent, SaveOk(id));
      var ld := LoadStart(saved, loadSilent);
      && ld.pending == Some(FetchRequest(req.token, id))
      && LoadFinish(ld.session, ld.pending.value, Fetched([req.file])).doc == s.doc
  {
    var st := SaveStart(s, createNew, silent);
    var req := st.pending.value;
    var saved := SaveFinish(st.session, req, silent, SaveOk(id));
    assert LoadId(saved) == id;
    assert LoadToken(saved) == req.token;
    assert ChooseFile([req.file]) == Some(req.file);
    ParseSerialize(s.doc);
    assert Received(Fetched([req.file])) == LoadedDoc(s.doc);
  }

  // ---------------------------------------------------------------------------
  // Auto-refresh

  /** Refreshes closer together than this many milliseconds are dropped. */
  const MinRefreshInterval: int := 5000

  datatype Refresh = Skipped | Refreshing(started: LoadStarted)

  /** `autoRefreshFromGist` when the page becomes visible or focused at time
      `now`: dropped while an autosave is in flight, within the interval of
      the last refresh, or without both credentials in local storage;
      otherwise the refresh time is recorded and a silent load starts. */
  function AutoRefresh(s: Session, now: int): (r: Refresh)
    ensures r.Skipped? <==> s.saving || now - s.lastRefresh < MinRefreshInterval || s.storedId == "" || s.storedToken == ""
    ensures r.Refreshing? ==>
      && r.started.session.lastRefresh == now
      && r.started.session.doc == s.doc
      && r.started.session.status == s.status
      && r.started.pending.Some?
  {
    if s.saving then Skipped
    else if now - s.lastRefresh < MinRefreshInterval then Skipped
    else if s.storedId == "" || s.storedToken == "" then Skipped
    else Refreshing(LoadStart(s.(lastRefresh := now), true))
  }

  /** No refresh can start while an autosave that has started is in flight. */
  lemma NoRefreshDuringAutosave(s: Session, now: int)
    requires AutosaveStart(s).Some?
    ensures AutoRefresh(AutosaveStart(s).value.session, now).Skipped?
  {
  }

  /** Once a refresh has gone ahead, whatever its reply, another request
      less than the interval later is dropped. */
  lemma RefreshThrottled(s: Session, now: int, reply: LoadReply, later: int)
    requires AutoRefresh(s, now).Refreshing?
    requires later - now < MinRefreshInterval
    ensures var st := AutoRefresh(s, now).started;
      AutoRefresh(LoadFinish(st.session, st.pending.value, reply), later).Skipped?
  {
    var st := AutoRefresh(s, now).started;
    assert LoadFinish(st.session, st.pending.value, reply).lastRefresh == now;
  }

  // ---------------------------------------------------------------------------
  // Start-up

  /** Page load at time `now`: the local copy is read and migrated, the
      inputs show the stored credentials, and a silent load starts when both
      are stored. When the first render throws (a bucket is missing), the
      start-up script stops there and no load starts. */
  function Startup(cache: Option<Json>, storedId: string, storedToken: string, now: int): (r: LoadStarted)
    ensures r.session.doc == LoadLocal(Empty, cache)
    ensures r.session.cache == cache
    ensures !r.session.saving && r.session.lastRefresh == now && r.session.status.None?
    ensures r.pending.Some? <==> Renders(r.session.doc) && storedId != "" && storedToken != ""
    ensures r.pending.Some? ==> r.pending.value == FetchRequest(storedToken, storedId)
  {
    var s := Session(LoadLocal(Empty, cache), cache, storedId, storedToken, Some(storedId), Some(storedToken), false, now, None);
    if Renders(s.doc) && storedId != "" && storedToken != "" then LoadStart(s, true) else LoadStarted(s, None)
  }

  /** Only a cached document that itself lacks a bucket can stop start-up:
      the empty document renders and migration adds no bucket. */
  lemma StartupRendersUnlessCacheLacksBucket(cache: Option<Json>, storedId: string, storedToken: string, now: int)
    ensures !Renders(Startup(cache, storedId, storedToken, now).session.doc) ==>
      cache.Some? && cache.value.Valid? && !Renders(cache.value.doc)
  {
    assert Renders(Empty) by {
      assert Key(Budget) == "budget" && Key(Bills) == "bills" && Key(Goals) == "goals";
    }
    LoadLocalKeepsRenders(Empty, cache);
  }

  /** A document pulled from the gist is cached as is and migrated on the
      next page load. */
  lemma LoadedDocumentMigratedOnRestart(s: Session, req: FetchRequest, reply: LoadReply, id: string, token: string, now: int)
    requires Received(reply).LoadedDoc?
    ensures var r := LoadFinish(s, req, reply);
      Startup(r.cache, id, token, now).session.doc == MigrateDoc(Received(reply).doc)
  {
    var r := LoadFinish(s, req, reply);
    assert r.cache == Some(Serialize(Received(reply).doc));
  }

  // ---------------------------------------------------------------------------
  // Backup import

  /** The top-level keys a backup object may carry; `None` is an absent key. */
  datatype Patch = Patch(
    accounts: Option<seq<Account>>,
    accountsLastAction: Option<Option<LastAction>>,
    items: Option<map<string, Slot>>,
    lastUpdated: Option<Option<string>>,
    lastSpend: Option<Option<SpendNote>>)

  /** A backup file's text: an object, `null`, another JSON value, or text
      that does not parse (with the parser's message). */
  datatype Backup = ObjectValue(patch: Patch) | NullValue | OtherValue | Unparsable(error: string)

  /** `Object.assign(state, patch)`: a key the patch carries overrides,
      every other key is kept. */
  function ApplyPatch(doc: Document, p: Patch): (r: Document)
    ensures p.accounts.Some? ==> r.accounts == p.accounts.value
    ensures p.accounts.None? ==> r.accounts == doc.accounts
    ensures p.accountsLastAction.Some? ==> r.accountsLastAction == p.accountsLastAction.value
    ensures p.accountsLastAction.None? ==> r.accountsLastAction == doc.accountsLastAction
    ensures p.items.Some? ==> r.items == p.items.value
    ensures p.items.None? ==> r.items == doc.items
    ensures p.lastUpdated.Some? ==> r.lastUpdated == p.lastUpdated.value
    ensures p.lastUpdated.None? ==> r.lastUpdated == doc.lastUpdated
    ensures p.lastSpend.Some? ==> r.lastSpend == p.lastSpend.value
    ensures p.lastSpend.None? ==> r.lastSpend == doc.lastSpend
  {
    Document(
      p.accounts.GetOr(doc.accounts),
      p.accountsLastAction.GetOr(doc.accountsLastAction),
      p.items.GetOr(doc.items),
      p.lastUpdated.GetOr(doc.lastUpdated),
      p.lastSpend.GetOr(doc.lastSpend))
  }

  /** The backup file the export button writes: every key with a value;
      `JSON.stringify` drops the ones still undefined. */
  function Export(doc: Document): (r: Backup)
    ensures r.ObjectValue?
    ensures r.patch.lastUpdated.None? <==> doc.lastUpdated.None?
    ensures r.patch.lastSpend.None? <==> doc.lastSpend.None?
    ensures ApplyPatch(doc, r.patch) == doc
  {
    ObjectValue(Patch(
      Some(doc.accounts),
      Some(doc.accountsLastAction),
      Some(doc.items),
      if doc.lastUpdated.Some? then Some(doc.lastUpdated) else None,
      if doc.lastSpend.Some? then Some(doc.lastSpend) else None))
  }

  const ImportOk: string := "Data imported successfully!"
  const ImportPrefix: string := "Import failed: "
  const BadFormat: string := "Invalid backup file format"

  datatype Imported = Imported(session: Session, alert: Option<string>)

  /** The import file handler: a non-object is refused with an alert; an
      object (or `null`) is merged only when the user confirms, and the
      result is cached locally. When the merged document lacks a bucket the
      render throws after the merge and the cache write, and the alert
      carries the engine's error text, `renderError`. */
  function Import(s: Session, file: Backup, confirmed: bool, renderError: string): (r: Imported)
    ensures file.Unparsable? ==> r == Imported(s, Some(ImportPrefix + file.error))
    ensures file.OtherValue? ==> r == Imported(s, Some(ImportPrefix + BadFormat))
    ensures (file.ObjectValue? || file.NullValue?) && !confirmed ==> r == Imported(s, None)
    ensures (file.ObjectValue? || file.NullValue?) && confirmed ==>
      && r.alert == Some(if Renders(r.session.doc) then ImportOk else ImportPrefix + renderError)
      && r.session == s.(doc := r.session.doc, cache := Some(Serialize(r.session.doc)))
    ensures file.NullValue? ==> r.session.doc == s.doc
    ensures file.ObjectValue? && confirmed ==> r.session.doc == ApplyPatch(s.doc, file.patch)
  {
    match file
    case Unparsable(e) => Imported(s, Some(ImportPrefix + e))
    case OtherValue => Imported(s, Some(ImportPrefix + BadFormat))
    case NullValue =>
      if confirmed then Imported(s.(cache := Some(Serialize(s.doc))), Some(Outcome(s.doc, renderError)))
      else Imported(s, None)
    case ObjectValue(p) =>
      if confirmed then
        var d := ApplyPatch(s.doc, p);
        Imported(s.(doc := d, cache := Some(Serialize(d))), Some(Outcome(d, renderError)))
      else Imported(s, None)
  }

  /** The alert after a confirmed merge: success, or the render's error. */
  function Outcome(d: Document, renderError: string): string
  {
    if Renders(d) then ImportOk else ImportPrefix + renderError
  }

  /** Importing an exported backup restores the exported document, except
      that a last-spend stamp the backup lacks is kept from the current one. */
  lemma ImportExported(s: Session, backup: Document, e: string)
    ensures var r := Import(s, Export(backup), true, e).session.doc;
      && r.accounts == backup.accounts
      && r.accountsLastAction == backup.accountsLastAction
      && r.items == backup.items
      && r.lastUpdated == (if backup.lastUpdated.Some? then backup.lastUpdated else s.doc.lastUpdated)
      && r.lastSpend == (if backup.lastSpend.Some? then backup.lastSpend else s.doc.lastSpend)
  {
  }

  /** A backup with every key restores the document exactly. */
  lemma ImportFullBackup(s: Session, backup: Document, e: string)
    requires backup.lastUpdated.Some? && backup.lastSpend.Some?
    ensures Import(s, Export(backup), true, e).session.doc == backup
  {
    ImportExported(s, backup, e);
  }

  /** Importing the same file twice is the same as importing it once. */
  lemma ImportIdempotent(s: Session, file: Backup, e: string)
    ensures var once := Import(s, file, true, e);
      Import(once.session, file, true, e) == once
  {
    if file.ObjectValue? {
      var p := file.patch;
      var d := ApplyPatch(s.doc, p);
      assert ApplyPatch(d, p) == d;
    }
  }
}
